=== FILE: README.md ===
# avsc binary codec, modelled in Dafny

This project models the binary codec of avsc, a cut-down JavaScript
implementation of the binary encoding of Apache Avro. It covers three layers.

- **The `Tap` cursor** (`src/utils.js`):
  - zigzag variable-length integers (`writeLong`, `readLong`);
  - length-prefixed strings (`writeString`, `readString`);
  - the lazy overrun check `isValid` and the `Tap` constructor;
  - the implied-namespace rule for dotted names.
- **The type variants and the schema compiler** (`src/types.js`):
  - `StringType`, `ArrayType` with its block encoding, and `RecordType` with its generated constructor, reader and writer;
  - `Field`, and `Type.forSchema` with its registry and namespace options.
- **The strict decoder `fromBuffer`** and the encoder `toBuffer`.

Everything is a pure function.
- Writers return the bytes they emit.
- Readers take a buffer and a position and return a `Decoded(value, pos)`.
- A byte outside the buffer reads as 0, as `undefined & mask` does in the source. The position still advances, so truncation shows up only as a final position past the end of the buffer.
- Exceptions are `Err` values of a `Result` type. Each error is named after the exception the source throws at that point.
- A property read `v.name` or `v[i]` looks at the value's own properties first. A name its prototype chain supplies, such as `toString`, gives the error `Unmodelled`, since functions are not values of the model. Any other missing name is `undefined`.
- An object with its own `toString` cannot be converted to a primitive, as `n >= 0` or interpolation into an error message requires. No model value is a function, so neither that `toString` nor `valueOf` returns a primitive, and the conversion throws a TypeError, the error `NoPrimitive`. Any other object converts to "[object Object]"; an array converts each element.

The model follows the code where it departs from the Avro standard:
- `readLong` stops after four 7-bit groups, so integers round-trip only on -2^27 <= n < 2^27.
- `writeString` stores UTF-16 code units under a UTF-8 length, so only ASCII text round-trips.
- An empty array is written as a single zero byte and reads back as `undefined`.
- A string schema is never looked up in the registry. Only `"string"` compiles.

The files are:
- `base.dfy` (module `Base`): bytes, `Option`, `Result`, errors.
- `utils.dfy` (module `Utils`): the cursor layer.
- `utils_proofs.dfy` (module `UtilsProofs`): its layouts and round trips.
- `types.dfy` (module `Types`): types, values, schemas, the compiler, the encoder and the decoders.
- `types_proofs.dfy` (module `TypesProofs`): the codec round trip at any position in a buffer.
- `types_laws.dfy` (module `TypesLaws`): `fromBuffer`, the shape of decoded records, and the compiler laws.
- `write_laws.dfy` (module `WriteLaws`): the writers on values that are not what the schema describes: strings and array-like objects as arrays, index keys, and record fields read along the prototype chain.
- `truncation.dfy` (module `Truncation`): every encoding cut short by one byte is a truncated buffer.

`Canonical(ty, v)` describes what decoding gives back for the encoding of a value that fits `ty` (`Conforms`):
- empty arrays become `undefined`;
- a record keeps only the properties its fields name.

`Exact(ty, v)` picks out the values that come back unchanged.

## Model

| member | source | states |
|---|---|---|
| Utils.ImpliedNamespace | src/utils.js:6-9 | A namespace is returned exactly when some dot splits the name as `/^(.*)\.[^.]+$/` does. Then it is the text before that dot, which is always the last dot. Otherwise the result is `undefined`. |
| UtilsProofs.ImpliedNamespaceExamples | src/utils.js:6-9 | `"C"` and `"a.b."` have no namespace. `"a.b.C"` has `"a.b"`. A line break before the dot defeats the match. |
| Utils.Tap.IsValid | src/utils.js:30-32 | When valid, every position before the cursor lies inside the buffer. When invalid, the position just before the cursor lies past the end, where a byte reads as zero. Nothing is said about which bytes were read on the way. |
| Utils.NewTap | src/utils.js:22-28 | The position defaults to 0. Otherwise its low 32 bits are kept, and a negative result fails with 'negative offset'. A successful tap keeps the buffer. |
| UtilsProofs.NewTapTruncatesPosition | src/utils.js:22-28 | Position 2^32 becomes 0; position 2^31 wraps to a negative number and is rejected. |
| Utils.ZigZag32 | src/utils.js:63 | For -2^30 <= n < 2^30 the zigzag image is 2n for n >= 0 and -2n-1 for n < 0. In general it is a signed 32-bit value. |
| Utils.WriteLong | src/utils.js:60-70 | The output is a well-formed varint of the zigzag image: 7-bit groups low first, the continuation bit 0x80 on every byte but the last. It fails (never terminates) exactly when the 32-bit image is negative, which cannot happen for -2^30 <= n < 2^30. |
| UtilsProofs.WriteLongExamples | src/utils.js:60-70 | 0, -1, 1, 2 and 64 are written as `00`, `01`, `02`, `04` and `80 01`. |
| UtilsProofs.ZigZagRoundTrip | src/utils.js:51 | `(m >> 1) ^ -(m & 1)` undoes the zigzag map on the whole 31-bit domain. |
| Utils.UnZigZag | src/utils.js:51 | The signed result is the number whose zigzag image is the read value. |
| Utils.ReadLong | src/utils.js:38-52 | readLong consumes between one and four bytes. Its result lies in [-2^27, 2^27). |
| UtilsProofs.VarintFitsFourGroups | src/utils.js:44-49 | A varint has at most four bytes exactly when its value is below 2^28. |
| UtilsProofs.ReadLongAt | src/utils.js:38-52 | Over the varint of any m < 2^28, wherever it sits in a buffer, readLong returns the signed value of m and stops right after the varint. |
| UtilsProofs.ReadLongRoundTrip | src/utils.js:38-70 | For -2^27 <= n < 2^27, readLong at the start of writeLong(n)'s output returns n. It advances by exactly the number of bytes written, whatever surrounds the output. |
| UtilsProofs.WideValueMisread | src/utils.js:44-49 | writeLong(2^27) is five bytes, and readLong stops after four and returns 0. The integer round trip does not extend past 2^27. |
| UtilsProofs.ReadLongStops | src/utils.js:44-49 | readLong passes over continuation bytes only. It stops after the first byte without the 0x80 bit, or after four bytes. |
| UtilsProofs.ReadGroupsValue | src/utils.js:44-49 | Whatever the bytes, the group loop adds the low seven bits of each byte it consumes at the next seven-bit position. |
| UtilsProofs.ReadLongValue | src/utils.js:38-52 | For any buffer and position, readLong returns the zigzag decoding of the varint value of exactly the bytes it consumed, padded or not. With ReadLongStops this pins down its result on every input. |
| UtilsProofs.PaddedZeroExample | src/utils.js:38-52 | The padded varint `80 00` reads as 0 and consumes two bytes. |
| UtilsProofs.FourContinuationBytesExample | src/utils.js:38-52 | `FF FF FF FF` reads as -2^27 after four bytes; the fifth byte is not read. |
| UtilsProofs.ReadLongAtEnd | src/utils.js:44-47 | At the end of the buffer readLong reads 0 and steps one past the end. |
| Utils.WriteString | src/utils.js:80-92 | The output is a varint header followed by as many bytes as the UTF-8 length. The header is the zigzag image of that length, i.e. twice the length. For ASCII text of length n it is varint(2n) followed by the character codes. |
| Utils.AsciiCodeUnits | src/utils.js:88-91 | On ASCII text the stored code units are exactly the character codes. |
| UtilsProofs.NonAsciiStringBytes | src/utils.js:80-92 | "é" is written as length 2, its code unit E9 and a zero for the missing second unit, not as its UTF-8 bytes. |
| Utils.ReadString | src/utils.js:72-78 | The position moves by the decoded length whether or not the bytes are there. The text is never longer than the buffer. It has one character per byte only because the model's `TextDecoder` (Utils.DecodeText, under Left out) maps each byte to one character. |
| UtilsProofs.DecodeAscii | src/utils.js:77 | Decoding the bytes of ASCII text gives the text back. |
| UtilsProofs.ReadStringAt | src/utils.js:72-92 | For ASCII text shorter than 2^27, readString over writeString's output, anywhere in a buffer, returns the text and ends where the output ends. |
| UtilsProofs.ReadStringRoundTrip | src/utils.js:72-92 | The same round trip with the surrounding bytes spelled out. |
| UtilsProofs.ReadStringOverrun | src/utils.js:72-78 | With the last byte of a non-empty string's output cut off, readString still advances by the full length. The tap ends past the buffer, and only isValid reports it. |
| Types.Compile | src/types.js:23-35 | An already-compiled record is returned unchanged with the options untouched. A type object without `_update` is not a constructor, and `undefined` fails. A string compiles exactly when it is "string" and is then stored in the registry under that name. Registry keys are only added. A successful compilation leaves the namespace as it found it. |
| Types.Construct | src/types.js:34 | Only the discriminators "string", "array" and "record" construct a type; with any other discriminator compilation fails. `{type: "string"}` is the string type, with the options untouched. `{type: "array", items: X}` compiles exactly when X does, to the array type of what X compiles to; missing items throw. |
| Types.ConstructRecord | src/types.js:186-218 | A record compiles to a record type and restores the namespace on success. Missing `fields` fails with the namespace set to the implied one when the name has a dot, and unchanged otherwise. |
| Types.CompileFields | src/types.js:199-206 | The fields compile in order, one compiled field per schema field. Each field keeps its schema's name, converted to a string. |
| TypesLaws.CompileFieldsMeaning | src/types.js:279-283 | `new Field(f, opts)` for each field schema: the list compiles exactly when every field's schema does. Field j then has the name of the j-th field schema and the type that schema compiles to, under any options. |
| TypesLaws.CompileRecord | src/types.js:186-218 | `{type: "record", fields}` compiles exactly when every field schema compiles. The result is a record type with one field per field schema, in order, each with the schema's name and compiled type. |
| Types.Prop | src/types.js:256-271 | `v.name` throws exactly when `v` is `undefined`. An own property comes first: an object's property, an array's length and elements, a string's length. An index key past an array's end is `undefined`. A member name inherited from the prototype chain gives Unmodelled, and any other missing name on a number or boolean is `undefined`. |
| Types.Write | src/types.js:123-167 | A string type writes a string value exactly as writeString does and throws for anything else: the error is the invalid-value error, except when building throwInvalidError's message (src/types.js:290-292) converts the value to a string and that conversion throws a TypeError (an object with its own `toString`, or an array holding one). An array type writes the single end marker for a value with a falsy length and throws for `undefined`. A non-empty array's output ends with the end marker. Strings and arrays never encode to nothing. |
| Types.WriteArrayLike | src/types.js:157-167 | A string or object with a truthy length is written by the same loop as an array. An object without its own `toString` as the length converts to NaN and writeLong never ends; one with its own `toString` makes `n >= 0` in writeLong (src/utils.js:62) throw a TypeError. Any output ends with the end marker. |
| Types.Elements | src/types.js:161-165 | The indexed reads `v[0]`..`v[n-1]`: none for n <= 0. It succeeds exactly when every property read under an index's decimal digits succeeds, and item i is that read. |
| Types.DecimalString | src/types.js:161-165 | The key an index converts to is a non-empty run of decimal digits with no leading zero, ending in the index's last digit, and a single digit exactly for indices below 10. WriteLaws.IndexKeyRoundTrip and WriteLaws.IndexKeyCanonical make it the inverse of Types.ParseIndex. |
| WriteLaws.ArrayLikeAsArray | src/types.js:157-167 | A string or object whose length is a positive number, or `true`, is written exactly as the array of its indexed reads. |
| WriteLaws.StringAsArray | src/types.js:157-167 | A non-empty string without characters beyond the Basic Multilingual Plane is written as the array of its one-character strings. |
| WriteLaws.StringItemsExample | src/types.js:157-167 | The string "ab" given to an array of strings is written as `04 02 61 02 62 00`. |
| WriteLaws.NegativeLengthExample | src/types.js:157-167 | `{length: -1}` is written as `01 00`: the count -1 and no items. |
| WriteLaws.TrueLengthExample | src/types.js:157-167 | `{length: true, 0: "x"}` counts as one item: `02 02 78 00`. |
| WriteLaws.MissingIndexExample | src/types.js:157-167 | `{length: 1}` passes `undefined` as its item, which the string writer rejects. |
| WriteLaws.ObjectLengthExample | src/types.js:157-167 | An object without its own `toString` as the length makes writeLong loop forever. |
| WriteLaws.ShadowedToStringLengthExample | src/utils.js:62 | `{length: {toString: "x"}}` written as an array of strings throws a TypeError when writeLong compares its length with 0. |
| WriteLaws.StringWriterConversionExamples | src/types.js:290-292 | The string writer rejects `{toString: 5}` and `[undefined, {toString: 5}]` with a TypeError from the error message's interpolation, and `{valueOf: 5}` and `[1, {}]` with the invalid-value error. |
| WriteLaws.StringElements | src/types.js:161-165 | The indexed reads of a string of Basic Multilingual Plane characters are its one-character strings. |
| WriteLaws.IndexKeyRoundTrip | src/types.js:161-165 | The decimal digits of an index parse back to that index, as an array index key. |
| WriteLaws.IndexKeyCanonical | src/types.js:161-165 | A key that parses as an index is exactly that index's decimal digits, so each index has one key. |
| WriteLaws.LeadingDigit | src/types.js:161-165 | Digits with a non-zero first digit denote a positive number. |
| WriteLaws.ObjectIndexRead | src/types.js:161-165 | An index key is never an inherited member, so an object's indexed read is its own property or `undefined`. |
| WriteLaws.ObjectElements | src/types.js:161-165 | The indexed reads of an object never fail. |
| WriteLaws.NonAsciiArrayExample | src/types.js:157-167 | `["é"]`, which does not conform, is written as `02 04 E9 00 00`: count, item, end marker. |
| WriteLaws.InheritedFieldExample | src/types.js:256-271 | A record field `toString` or `constructor` read from `{}` reaches a member of Object.prototype, which is Unmodelled. |
| WriteLaws.OwnFieldExample | src/types.js:256-271 | An own property `toString` shadows the inherited one: `{toString: "x"}` is written as `02 78`. |
| WriteLaws.MissingFieldExample | src/types.js:256-271 | A missing field that names no inherited member reads `undefined`, which the string writer rejects. |
| Types.WriteItems | src/types.js:162-164 | The items are written exactly when each item can be. |
| Types.WriteFields | src/types.js:256-271 | An `undefined` value throws for a record with at least one field. |
| Types.Read | src/types.js:120-155 | A string read never fails and yields a string. An array read yields `undefined` or a non-empty array. A record read yields an object. |
| Types.ReadBlocks | src/types.js:144-155 | A zero count ends the loop with the array read so far, or `undefined` if there is none. A negative first count is an invalid array length. Later blocks only extend the array. |
| Types.ReadForever | src/types.js:150-152 | With a negative count the item loop only ends by throwing. |
| Types.ReadItems | src/types.js:150-152 | One block of n items appends exactly n values and keeps the ones before. |
| Types.FromBuffer | src/types.js:66-76 | A decoder that ran past the end gives 'truncated buffer'. One that stopped short gives 'trailing data' unless noCheck is set. Otherwise the decoded value is returned, so a strict success consumed the buffer exactly. Errors of the decoder pass through. |
| TypesProofs.WriteConforming | src/types.js:123-167 | Every conforming value (ASCII strings, arrays shorter than 2^27, objects with every field) is encoded without error. |
| TypesProofs.ReadWriteAt | src/types.js:120-271 | Wherever a conforming value's encoding sits in a buffer, reading it by the same type yields the value's canonical form and stops right after the encoding. |
| TypesProofs.ArrayShape | src/types.js:157-167 | For any array the writer accepts, an empty one is written as the single byte 0, and a non-empty one as writeLong(n), then each item's encoding in order, then 0. For a conforming array, writeLong(n) is the varint of 2n and the canonical form follows the items. |
| TypesProofs.ReadArrayEncoding | src/types.js:144-155 | The count, items and end marker of a non-empty array read back as the array of the items' canonical forms, ending after the marker. |
| TypesProofs.ReadEmptyArray | src/types.js:148-154 | A first block count of zero reads as `undefined`. |
| TypesProofs.ReadItemsAt | src/types.js:150-152 | The item loop reads the items back in order, after any items already read, and stops after the last one. |
| TypesProofs.ReadFieldsAt | src/types.js:240-254 | The record reader reads each field in declared order and stores it under the field's name, ending after the last field. |
| TypesProofs.WriteFieldsOkStep | src/types.js:256-271 | The record writer succeeds from field i on exactly when field i's property read succeeds with a value its type can write and the writer succeeds on the later fields. |
| TypesProofs.WrittenFieldWritable | src/types.js:256-271 | When the record writer succeeds, every field's property read succeeded and gave a value its type can write. |
| TypesProofs.WritableFieldsWritten | src/types.js:256-271 | Conversely, when every field's property read succeeds with a writable value, the record writer succeeds. |
| TypesProofs.WriteFieldsStep | src/types.js:256-271 | Whenever the record writer succeeds, it emits the encoding of each field's property read, in declared order, with nothing in between. For a conforming value that read is the object's own property. |
| TypesLaws.ReadRecordKeys | src/types.js:224-238 | A decoded record has exactly the field names as properties. |
| TypesLaws.ExactIsCanonical | src/types.js:144-155 | A value with no empty array and no extra property is its own canonical form. |
| TypesLaws.FromBufferRoundTrip | src/types.js:66-91 | fromBuffer of toBuffer of a conforming value succeeds strictly and yields its canonical form. |
| TypesLaws.FromBufferExact | src/types.js:66-91 | Such a value with no empty array and no extra property comes back unchanged. |
| TypesLaws.FromBufferTrailing | src/types.js:72-74 | Extra bytes after an encoding are trailing data in strict mode. With noCheck the value decodes as usual. |
| TypesLaws.FromBufferTruncatedString | src/types.js:69-71 | A string encoding missing its last byte is a truncated buffer, with or without noCheck. |
| Types.ToBuffer | src/types.js:87-91 | toBuffer returns exactly the bytes the writer emits from position 0; FromBufferRoundTrip and FromBufferTruncated are its laws with fromBuffer. |
| Truncation.FromBufferTruncated | src/types.js:66-76 | For every type, the encoding of a conforming value missing its last byte is a truncated buffer, with or without noCheck. |
| Truncation.CutReadAt | src/types.js:120-155 | Reading a conforming value's encoding that is cut short by its last byte, at the end of a buffer, still succeeds and stops exactly where the whole encoding ends. |
| Truncation.CutStringAt | src/utils.js:72-78 | The string reader on a cut encoding: its header is intact, or, for the empty string, is the missing byte and reads as zero past the end. |
| Truncation.CutArrayAt | src/types.js:144-155 | The array reader on a cut encoding: only the end marker is missing, and the block loop reads a zero count past the end. |
| Truncation.CutFieldsAt | src/types.js:240-254 | The record reader on a cut encoding: the fields before the cut one read back whole, and the empty fields after it read nothing. |
| Truncation.ReadEmptyAt | src/types.js:120-155 | A value whose encoding is empty (a record of such records) reads nothing, wherever the reader stands, even past the end. |
| Truncation.EmptyFieldStep | src/types.js:256-271 | When a conforming record's fields from i on encode to nothing, field i's own value conforms and encodes to nothing, and so do the later fields. |
| Truncation.ReadEmptyFields | src/types.js:240-254 | Record fields that encode to nothing read nothing. |
| TypesLaws.EmptyArrayIsUndefined | src/types.js:144-167 | An empty array is written as `00` and decodes to `undefined`. |
| TypesLaws.ReadFirstBlock | src/types.js:144-155 | Reading an array starts with its first block: the loop goes on at the next block count, holding that block's items in canonical form. |
| TypesLaws.ReadBlockThen | src/types.js:148-153 | A block of conforming items, read after any earlier items, appends the canonical forms of its items. The loop then goes on right after the block. |
| TypesLaws.ReadLastBlock | src/types.js:144-155 | A block followed by the end marker completes the array read so far with that block's items. The read ends after the marker. |
| TypesLaws.ReadBlocksEnd | src/types.js:148-155 | A zero count after earlier blocks returns the array read so far. |
| TypesLaws.CompileIgnoresOpts | src/types.js:23-35 | What a schema compiles to does not depend on the registry or the namespace. forSchema reads the registry and RecordType reads the namespace, but neither changes the compiled type. |
| Types.IsType | src/types.js:37-56 | isType with one argument holds of a compiled type that has an `_update` method, which only RecordType defines. |
| TypesLaws.RecompileOnlyRecords | src/types.js:23-28 | A compiled record passes isType and is returned unchanged by forSchema. A compiled string or array type fails isType and is not a constructor. |
| TypesLaws.NamedReferenceFails | src/types.js:30-34 | A string schema is compiled as `{type: name}` whatever the registry holds. "string" compiles and is registered. "array" and "record" throw on their missing attributes, and any other name is not a constructor. |
| TypesLaws.NamespaceLeaksOnError | src/types.js:189-216 | A record named `a.b.C` compiles its fields in namespace `a.b`. When a field fails, the namespace is not restored. |
| TypesLaws.NamespaceKeptWithoutDot | src/types.js:189-216 | A record named `C` enters no namespace, so a failing field leaves the caller's namespace as it was. |
| TypesLaws.NamespaceRestored | src/types.js:189-216 | When the fields compile, the namespace on entry is restored and only the registry has grown. |
| TypesLaws.TagSchemasCompile | test.js:5-18 | The Tag record compiles to two string fields. The array schema takes the compiled Tag as its items unchanged. |
| TypesLaws.TagsRoundTrip | test.js:42-54 | The sample tags encode, and decode back to the same names and values. |

## Left out

- Runtime code generation with `new Function` (src/types.js:224-271). The generated constructor, reader and writer are folds over the field list. A field name that is not a JavaScript identifier would change the generated code; the model treats every name as a plain property.
- Types.ToBuffer: the shared 1024-byte scratch tap is not modelled. The source silently drops bytes past the 1024th; the model returns the whole unbounded encoding.
- Utils.DecodeText: `TextDecoder` is a foreign call. It is exact on ASCII bytes; every other byte is modelled as one U+FFFD, not as UTF-8 decoding. Its contract states only the length.
- Types.Read: the array reader carries a `fuel` bound on blocks and on the endless negative-count item loop, and gives up with OutOfFuel when the bound runs out. A negative string length can move the cursor back, so the source may loop forever where the model runs out of fuel. Every round-trip lemma needs only one unit of fuel.
- Types.Construct: `TYPES` is a plain object, so the discriminator "constructor" reaches `Object` and returns the schema object itself. The model treats it like any other unknown name.
- Types.Prop: values are only `undefined`, booleans, numbers, strings, arrays and plain objects. Functions and prototype objects are not values, so reading a member name that the prototype chain of the value supplies gives Unmodelled. The member names listed are the string-keyed ones of ECMA-262 (2024) with Annex B. A field named `__proto__` on a decoded record, which the generated constructor would turn into a prototype assignment, is not followed either.
- Types.Prop: an index read on a string with characters beyond the Basic Multilingual Plane would yield half a surrogate pair. A Dafny string cannot hold one, so the result is Unmodelled.
- Types.WriteArrayLike: a length that is a string or an array needs JavaScript's number conversion, which is not followed. Such a length gives Unmodelled. Numbers are integers, so a fractional length cannot be expressed.
- Types.Elements: an indexed read the model does not follow (see Types.Prop) makes the whole result Unmodelled, even where the source would have thrown earlier on an item before it.
- Types.IsType: only the one-argument form is modelled. The prefix form with `typeName` is used only by `branchName`.
- `schema`, `_attrs`, `_deref` and `branchName` (src/types.js:58-64, 78-116). They produce schema text for error messages only. `throwInvalidError` is modelled as InvalidValue without its message text. Interpolating the value into that message can throw a TypeError, and that case is modelled as NoPrimitive.
- Recursive and named type references. The registry is written and never read, so no reference is ever resolved.
- A descriptor whose `type` is not a string, and a field entry that is `undefined`, are not representable.
- `readInt` and `writeInt` are aliases of `readLong` and `writeLong`.
- Characters that are lone surrogates cannot occur in a Dafny string, so `Utf16Units` encodes only well-formed text.
- test/test_schema.js targets an older API that this code does not have. types/utils.d.ts holds declarations only. The Python benchmark is file I/O and timing.
- The `isValid` test in test.js reads an undefined parser, so it states nothing about the codec.

=== FILE: base.dfy ===
/** Vocabulary shared by the cursor (Utils) and the type model (Types):
    bytes, optional values, results, and the ways an operation can fail. */
module Base {

  /** One element of a `Uint8Array`. */
  type byte = b: int | 0 <= b < 256

  /** A JavaScript value that may be `undefined`. */
  datatype Option<+T> = None | Some(value: T)

  /** Why an operation throws (or never returns). Each constructor names the
      JavaScript exception the source raises at that point. */
  datatype Error =
    | NegativeOffset      // Tap constructor: 'negative offset'
    | TruncatedBuffer     // fromBuffer: 'truncated buffer'
    | TrailingData        // fromBuffer: 'trailing data'
    | InvalidValue        // throwInvalidError: a value of the wrong shape
    | NotAConstructor     // `new TYPES[x]` where `x` names no type variant
    | UndefinedAccess     // TypeError: a property read on `undefined`
    | NoPrimitive         // TypeError: a conversion to a primitive finds no method to call
    | InvalidArrayLength  // RangeError: `new Array(n)` with a negative `n`
    | NonTermination      // the source loops forever at this point
    | OutOfFuel           // the model's bound on array blocks was reached
    | Unmodelled          // a JavaScript conversion the model does not follow

  /** The outcome of an operation that may throw; usable with `:-`. */
  datatype Result<+T> = Ok(value: T) | Err(error: Error) {

    predicate IsFailure() {
      Err?
    }

    function PropagateFailure<U>(): Result<U>
      requires Err?
    {
      Err(error)
    }

    function Extract(): T
      requires Ok?
    {
      value
    }
  }
}

=== FILE: truncation.dfy ===
/** A buffer missing the last byte of an encoding is a truncated buffer:
    every reader, run on the shortened buffer, still stops exactly where the
    whole encoding ends, one byte past the end of what is there, because
    bytes past the end read as zero. */
module Truncation {
  import opened Base
  import opened Utils
  import opened UtilsProofs
  import opened Types
  import opened TypesProofs
  import opened TypesLaws

  /** `fromBuffer` on an encoding without its last byte reports a truncated
      buffer, for every type, with or without `noCheck`. */
  lemma FromBufferTruncated(ty: Type, v: Value, noCheck: bool, fuel: nat)
    requires Conforms(ty, v) && fuel >= 1
    requires ToBuffer(ty, v).Ok? && |ToBuffer(ty, v).value| > 0
    ensures var e := ToBuffer(ty, v).value;
            FromBuffer(ty, e[..|e| - 1], noCheck, fuel) == Err(TruncatedBuffer)
  {
    var e := ToBuffer(ty, v).value;
    var cut := e[..|e| - 1];
    AtWhole(cut);
    CutReadAt(ty, v, cut, 0, |e|, fuel, e);
  }

  /** The reader of `ty`, run on the encoding of `v` cut short by its last
      byte, ends where the whole encoding ends. */
  lemma {:induction false} CutReadAt(ty: Type, v: Value, buf: seq<byte>, p: int, q: int, fuel: nat,
                                     e: seq<byte>)
    requires Conforms(ty, v) && fuel >= 1 && Write(ty, v) == Ok(e) && |e| > 0
    requires At(buf, p, e[..|e| - 1]) && q == p + |e| && |buf| == q - 1
    ensures Read(ty, buf, p, fuel).Ok? && Read(ty, buf, p, fuel).value.pos == q
    decreases ty, 2
  {
    match ty
    case StringType =>
      CutStringAt(v.s, buf, p, q, fuel, e);
    case ArrayType(_) =>
      assert v == VArray(v.elems);
      CutArrayAt(ty, v.elems, buf, p, q, fuel, e);
    case RecordType(_) =>
      assert v.VObject? && Write(ty, v) == WriteFields(ty, v, 0);
      CutFieldsAt(ty, v, 0, buf, p, q, map[], fuel, e);
      RecordUnfold(ty, v, buf, p, fuel);
  }

  /** The string reader: the length header is intact; an empty string's
      header is the byte cut off, and reads as zero past the end. */
  lemma CutStringAt(s: string, buf: seq<byte>, p: int, q: int, fuel: nat, e: seq<byte>)
    requires IsAscii(s) && |s| < TWO_27 && WriteString(s) == Ok(e)
    requires At(buf, p, e[..|e| - 1]) && q == p + |e| && |buf| == q - 1
    ensures Read(StringType, buf, p, fuel).Ok? && Read(StringType, buf, p, fuel).value.pos == q
  {
    var header := VarintBytes(2 * |s|);
    var body := AsciiBytes(s);
    assert e == header + body;
    if |s| == 0 {
      assert header == [0];
      ReadLongAtEnd(buf, p);
    } else {
      assert e[..|e| - 1] == header + body[..|body| - 1];
      AtParts(buf, p, header, body[..|body| - 1], p + |header|);
      ReadStringPastEnd(buf, p, |s|, p + |header|, q);
    }
  }

  /** The array reader: only the end marker is cut off, and the block loop
      reads a zero count past the end. */
  lemma CutArrayAt(arr: Type, xs: seq<Value>, buf: seq<byte>, p: int, q: int, fuel: nat, e: seq<byte>)
    requires arr.ArrayType? && Conforms(arr, VArray(xs)) && fuel >= 1 && Write(arr, VArray(xs)) == Ok(e)
    requires At(buf, p, e[..|e| - 1]) && q == p + |e| && |buf| == q - 1
    ensures Read(arr, buf, p, fuel).Ok? && Read(arr, buf, p, fuel).value.pos == q
  {
    ArrayShape(arr, xs);
    if |xs| == 0 {
      ReadLongAtEnd(buf, p);
      ReadEmptyArray(arr, buf, p, fuel);
    } else {
      var header := VarintBytes(2 * |xs|);
      var body := WriteItems(arr, xs, 0).value;
      var p1 := p + |header|;
      var p2 := p1 + |body|;
      assert e[..|e| - 1] == header + body;
      AtParts(buf, p, header, body, p1);
      ReadCountAt(buf, p, |xs|, p1);
      ReadLongAtEnd(buf, p2);
      ReadArrayBlock(arr, xs, buf, p, p1, p2, fuel, body);
    }
  }

  /** The record reader from field `i` on, when the fields from `i` on
      encode to `w`: the fields before the last non-empty one read as
      usual, that one is cut, and the empty ones after it read nothing. */
  lemma {:induction false} CutFieldsAt(rec: Type, v: Value, i: nat, buf: seq<byte>, p: int, q: int,
                                       acc: map<string, Value>, fuel: nat, w: seq<byte>)
    requires rec.RecordType? && i <= |rec.fields| && Conforms(rec, v) && fuel >= 1
    requires WriteFields(rec, v, i) == Ok(w) && |w| > 0
    requires At(buf, p, w[..|w| - 1]) && q == p + |w| && |buf| == q - 1
    ensures ReadFields(rec, buf, p, i, acc, fuel).Ok? && ReadFields(rec, buf, p, i, acc, fuel).value.pos == q
    decreases rec, 1, |rec.fields| - i, 1
  {
    if i == |rec.fields| {
      ReadFieldsEnd(rec, v, buf, p, acc, fuel);
      assert false;
    }
    WriteFieldsStep(rec, v, i);
    if |WriteFields(rec, v, i + 1).value| > 0 {
      CutLaterField(rec, v, i, buf, p, q, acc, fuel, w);
    } else {
      CutThisField(rec, v, i, buf, p, q, acc, fuel, w);
    }
  }

  /** Field `i` is whole, and the cut falls in a later field. */
  lemma {:induction false} CutLaterField(rec: Type, v: Value, i: nat, buf: seq<byte>, p: int, q: int,
                                         acc: map<string, Value>, fuel: nat, w: seq<byte>)
    requires rec.RecordType? && i < |rec.fields| && Conforms(rec, v) && fuel >= 1
    requires WriteFields(rec, v, i) == Ok(w) && |w| > 0
    requires rec.fields[i].name in v.props
    requires Write(rec.fields[i].ty, v.props[rec.fields[i].name]).Ok?
    requires WriteFields(rec, v, i + 1).Ok? && |WriteFields(rec, v, i + 1).value| > 0
    requires w == Write(rec.fields[i].ty, v.props[rec.fields[i].name]).value + WriteFields(rec, v, i + 1).value
    requires At(buf, p, w[..|w| - 1]) && q == p + |w| && |buf| == q - 1
    ensures ReadFields(rec, buf, p, i, acc, fuel).Ok? && ReadFields(rec, buf, p, i, acc, fuel).value.pos == q
    decreases rec, 1, |rec.fields| - i, 0
  {
    var f := rec.fields[i];
    assert f in rec.fields;
    var x := v.props[f.name];
    assert Conforms(f.ty, x);
    var a := Write(f.ty, x).value;
    var b := WriteFields(rec, v, i + 1).value;
    var p1 := p + |a|;
    assert w[..|w| - 1] == a + b[..|b| - 1];
    AtParts(buf, p, a, b[..|b| - 1], p1);
    ReadWriteAt(f.ty, x, buf, p, p1, fuel);
    var d := Decoded(Canonical(f.ty, x), p1);
    ReadFieldsStep(rec, buf, p, i, acc, fuel, d);
    CutFieldsAt(rec, v, i + 1, buf, p1, q, acc[f.name := d.value], fuel, b);
  }

  /** The cut falls in field `i`, and the fields after it encode to
      nothing. */
  lemma {:induction false} CutThisField(rec: Type, v: Value, i: nat, buf: seq<byte>, p: int, q: int,
                                        acc: map<string, Value>, fuel: nat, w: seq<byte>)
    requires rec.RecordType? && i < |rec.fields| && Conforms(rec, v) && fuel >= 1
    requires WriteFields(rec, v, i) == Ok(w) && |w| > 0
    requires rec.fields[i].name in v.props
    requires Write(rec.fields[i].ty, v.props[rec.fields[i].name]).Ok?
    requires WriteFields(rec, v, i + 1) == Ok([])
    requires w == Write(rec.fields[i].ty, v.props[rec.fields[i].name]).value
    requires At(buf, p, w[..|w| - 1]) && q == p + |w| && |buf| == q - 1
    ensures ReadFields(rec, buf, p, i, acc, fuel).Ok? && ReadFields(rec, buf, p, i, acc, fuel).value.pos == q
    decreases rec, 1, |rec.fields| - i, 0
  {
    var f := rec.fields[i];
    assert f in rec.fields;
    var x := v.props[f.name];
    assert Conforms(f.ty, x);
    CutReadAt(f.ty, x, buf, p, q, fuel, w);
    var d := Read(f.ty, buf, p, fuel).value;
    ReadFieldsStep(rec, buf, p, i, acc, fuel, d);
    ReadEmptyFields(rec, v, i + 1, buf, q, acc[f.name := d.value], fuel);
  }

  /** A value whose encoding is empty (a record of such records) reads
      nothing, wherever the reader stands, past the end included. */
  lemma {:induction false} ReadEmptyAt(ty: Type, v: Value, buf: seq<byte>, p: int, fuel: nat)
    requires Conforms(ty, v) && Write(ty, v) == Ok([])
    ensures Read(ty, buf, p, fuel).Ok? && Read(ty, buf, p, fuel).value.pos == p
    decreases ty, 1
  {
    assert ty.RecordType?;
    ReadEmptyFields(ty, v, 0, buf, p, map[], fuel);
    RecordUnfold(ty, v, buf, p, fuel);
  }

  /** The record reader from field `i` on, when those fields encode to
      nothing. */
  lemma {:induction false} ReadEmptyFields(rec: Type, v: Value, i: nat, buf: seq<byte>, p: int,
                                           acc: map<string, Value>, fuel: nat)
    requires rec.RecordType? && i <= |rec.fields| && Conforms(rec, v) && WriteFields(rec, v, i) == Ok([])
    ensures ReadFields(rec, buf, p, i, acc, fuel).Ok? && ReadFields(rec, buf, p, i, acc, fuel).value.pos == p
    decreases rec, 0, |rec.fields| - i
  {
    if i < |rec.fields| {
      EmptyFieldStep(rec, v, i);
      var f := rec.fields[i];
      var x := v.props[f.name];
      ReadEmptyAt(f.ty, x, buf, p, fuel);
      var d := Read(f.ty, buf, p, fuel).value;
      ReadFieldsStep(rec, buf, p, i, acc, fuel, d);
      ReadEmptyFields(rec, v, i + 1, buf, p, acc[f.name := d.value], fuel);
    }
  }

  /** A field of a conforming record whose fields from `i` on encode to
      nothing encodes to nothing itself, and so do the fields after it. */
  lemma EmptyFieldStep(rec: Type, v: Value, i: nat)
    requires rec.RecordType? && i < |rec.fields| && Conforms(rec, v) && WriteFields(rec, v, i) == Ok([])
    ensures rec.fields[i].name in v.props && Conforms(rec.fields[i].ty, v.props[rec.fields[i].name])
    ensures Write(rec.fields[i].ty, v.props[rec.fields[i].name]) == Ok([]) && WriteFields(rec, v, i + 1) == Ok([])
  {
    WriteFieldsStep(rec, v, i);
    var f := rec.fields[i];
    assert f in rec.fields;
    assert Prop(v, f.name) == Ok(v.props[f.name]);
  }
}

=== FILE: types.dfy ===
/** The type model and schema compiler of src/types.js: the three type
    variants (string, array, record), `Type.forSchema`, the encoder behind
    `toBuffer` and the strict decoder `fromBuffer`.

    A compiled type is an immutable value. The generated record reader,
    writer and constructor are folds over the ordered field list. Decoding
    is a pure function of the buffer and a position; since the source can
    loop forever on hostile input (a negative string length moves the
    cursor back), the array reader carries a `fuel` bound on the number of
    blocks it reads. */
module Types {
  import opened Base
  import opened Utils

  /* --------------------------------------------------------------- values */

  /** A JavaScript value as the codec sees it. A record instance is an object
      whose properties are the field values. */
  datatype Value =
    | VUndefined
    | VBool(b: bool)
    | VNum(n: int)
    | VStr(s: string)
    | VArray(elems: seq<Value>)
    | VObject(props: map<string, Value>)

  /** JavaScript truthiness. */
  predicate Truthy(v: Value) {
    match v
    case VUndefined => false
    case VBool(b) => b
    case VNum(n) => n != 0
    case VStr(s) => s != []
    case VArray(_) => true
    case VObject(_) => true
  }

  /** Whether `key` names a property every plain object inherits from
      `Object.prototype` (section 20.1.3 of ECMA-262, with the legacy
      accessors of Annex B.2.2). */
  predicate IsObjectMember(key: string) {
    key == "constructor" || key == "hasOwnProperty" || key == "isPrototypeOf" ||
    key == "propertyIsEnumerable" || key == "toLocaleString" || key == "toString" ||
    key == "valueOf" || key == "__proto__" || key == "__defineGetter__" ||
    key == "__defineSetter__" || key == "__lookupGetter__" || key == "__lookupSetter__"
  }

  /** Whether `key` names a property `Array.prototype` adds (section
      23.1.3 of ECMA-262). */
  predicate IsArrayMember(key: string) {
    key == "at" || key == "concat" || key == "copyWithin" || key == "entries" ||
    key == "every" || key == "fill" || key == "filter" || key == "find" ||
    key == "findIndex" || key == "findLast" || key == "findLastIndex" || key == "flat" ||
    key == "flatMap" || key == "forEach" || key == "includes" || key == "indexOf" ||
    key == "join" || key == "keys" || key == "lastIndexOf" || key == "map" || key == "pop" ||
    key == "push" || key == "reduce" || key == "reduceRight" || key == "reverse" ||
    key == "shift" || key == "slice" || key == "some" || key == "sort" || key == "splice" ||
    key == "toReversed" || key == "toSorted" || key == "toSpliced" || key == "unshift" ||
    key == "values" || key == "with"
  }

  /** Whether `key` names a property `String.prototype` adds (section
      22.1.3 of ECMA-262, with the HTML methods and aliases of Annex B.2.2). */
  predicate IsStringMember(key: string) {
    key == "at" || key == "charAt" || key == "charCodeAt" || key == "codePointAt" ||
    key == "concat" || key == "endsWith" || key == "includes" || key == "indexOf" ||
    key == "isWellFormed" || key == "lastIndexOf" || key == "localeCompare" ||
    key == "match" || key == "matchAll" || key == "normalize" || key == "padEnd" ||
    key == "padStart" || key == "repeat" || key == "replace" || key == "replaceAll" ||
    key == "search" || key == "slice" || key == "split" || key == "startsWith" ||
    key == "substring" || key == "toLocaleLowerCase" || key == "toLocaleUpperCase" ||
    key == "toLowerCase" || key == "toUpperCase" || key == "toWellFormed" || key == "trim" ||
    key == "trimEnd" || key == "trimStart" || key == "substr" || key == "anchor" ||
    key == "big" || key == "blink" || key == "bold" || key == "fixed" || key == "fontcolor" ||
    key == "fontsize" || key == "italics" || key == "link" || key == "small" ||
    key == "strike" || key == "sub" || key == "sup" || key == "trimLeft" ||
    key == "trimRight"
  }

  /** Whether `key` names a property `Number.prototype` adds (section
      21.1.3 of ECMA-262); `Boolean.prototype` adds none beyond those of
      Object. */
  predicate IsNumberMember(key: string) {
    key == "toExponential" || key == "toFixed" || key == "toPrecision"
  }

  /** Whether `v` inherits a property named `key` from its prototype
      chain. No such property is a model value: each is a function, or the
      prototype itself. */
  predicate IsInherited(v: Value, key: string)
    ensures IsObjectMember(key) ==> IsInherited(v, key)
  {
    match v
    case VArray(_) => IsObjectMember(key) || IsArrayMember(key)
    case VStr(_) => IsObjectMember(key) || IsStringMember(key)
    case VNum(_) => IsObjectMember(key) || IsNumberMember(key)
    case _ => IsObjectMember(key)
  }

  /** The array index a property key denotes: decimal digits with no leading
      zero (the canonical numeric strings of the non-negative integers). */
  function ParseIndex(key: string): (r: Option<nat>)
    ensures r.Some? ==> |key| > 0 && IsDigits(key)
  {
    if key == [] || !IsDigits(key) || (|key| > 1 && key[0] == '0') then None
    else Some(DigitsValue(key))
  }

  predicate IsDigits(s: string) {
    forall j :: 0 <= j < |s| ==> '0' <= s[j] <= '9'
  }

  /** The number a string of decimal digits denotes. */
  function DigitsValue(s: string): nat
    requires IsDigits(s)
  {
    if s == [] then 0
    else DigitsValue(s[..|s| - 1]) * 10 + (s[|s| - 1] as int - '0' as int)
  }

  /** The property read `v.key` or `v[key]`, walking the prototype chain.
      Reading any property of `undefined` throws. Own properties come first:
      an object's, an array's `length` and elements, a string's `length` and
      code units. A name found further up the chain gives a function or a
      prototype, which the model does not follow; any other name is
      `undefined`. */
  function Prop(v: Value, key: string): (r: Result<Value>)
    ensures r == Err(UndefinedAccess) <==> v.VUndefined?
    ensures r.Err? ==> r.error in {UndefinedAccess, Unmodelled}
    ensures v.VObject? && key in v.props ==> r == Ok(v.props[key])
    ensures v.VArray? && key == "length" ==> r == Ok(VNum(|v.elems|))
    ensures v.VStr? && key == "length" ==> r == Ok(VNum(Utf16Length(v.s)))
    ensures key == "length" && !v.VUndefined? ==> r.Ok?
    ensures !v.VUndefined? && key != "length" && ParseIndex(key).None? &&
            IsInherited(v, key) && !(v.VObject? && key in v.props) ==>
              r == Err(Unmodelled)
    ensures v.VArray? && ParseIndex(key).Some? ==>
              r == Ok(if ParseIndex(key).value < |v.elems| then v.elems[ParseIndex(key).value] else VUndefined)
    ensures (v.VNum? || v.VBool?) && !IsInherited(v, key) ==> r == Ok(VUndefined)
  {
    match v
    case VUndefined => Err(UndefinedAccess)
    case VObject(m) => if key in m then Ok(m[key]) else Inherited(v, key)
    case VArray(xs) =>
      if key == "length" then Ok(VNum(|xs|))
      else if ParseIndex(key).Some? then
        var i := ParseIndex(key).value;
        Ok(if i < |xs| then xs[i] else VUndefined)
      else Inherited(v, key)
    case VStr(s) =>
      if key == "length" then Ok(VNum(Utf16Length(s)))
      else if ParseIndex(key).Some? then
        var i := ParseIndex(key).value;
        if i >= Utf16Length(s) then Ok(VUndefined)
        else if Utf16Length(s) == |s| then Ok(VStr([s[i]]))
        else Err(Unmodelled)
      else Inherited(v, key)
    case _ => Inherited(v, key)
  }

  /** A property `v` does not own: a member of its prototype chain, which
      the model does not follow, or `undefined`. */
  function Inherited(v: Value, key: string): (r: Result<Value>)
    ensures r.Ok? <==> !IsInherited(v, key)
    ensures r.Ok? ==> r.value.VUndefined?
  {
    if IsInherited(v, key) then Err(Unmodelled) else Ok(VUndefined)
  }

  /* ---------------------------------------------------------------- types */

  /** A compiled type. A record keeps only its ordered fields: the name of
      its schema is used for the namespace while compiling and then dropped. */
  datatype Type =
    | StringType
    | ArrayType(items: Type)
    | RecordType(fields: seq<Field>)

  /** A record field. */
  datatype Field = Field(name: string, ty: Type)

  /** The property names a record's fields use. */
  function FieldNames(fields: seq<Field>): set<string> {
    NamesFrom(fields, 0)
  }

  /** The property names of the fields from index `i` on. */
  function NamesFrom(fields: seq<Field>, i: nat): (r: set<string>)
    requires i <= |fields|
    ensures forall j :: i <= j < |fields| ==> fields[j].name in r
    decreases |fields| - i
  {
    if i == |fields| then {} else {fields[i].name} + NamesFrom(fields, i + 1)
  }

  /** Type.isType with one argument: the value has an `_update` method,
      which of the three variants only records define. */
  predicate IsType(s: Schema) {
    s.TypeObject? && s.ty.RecordType?
  }

  /* -------------------------------------------------------------- schemas */

  /** What `Type.forSchema` is given. */
  datatype Schema =
    | Undefined                  // `undefined` (an absent attribute)
    | Name(name: string)         // a string
    | TypeObject(ty: Type)       // an object built by a type constructor
    | Object(d: Descriptor)      // a plain descriptor object

  /** The attributes of a descriptor object the compiler reads. */
  datatype Descriptor = Descriptor(
    kind: Option<string>,        // `type`
    items: Schema,               // `items`
    name: Option<string>,        // `name`
    fields: Fields)              // `fields`

  datatype Fields = NoFields | FieldList(list: seq<FieldSchema>)

  datatype FieldSchema = FieldSchema(name: Option<string>, schema: Schema)

  /** The compile-time options object: the registry of compiled names and
      the current namespace. An absent registry is the empty map, which
      `opts.registry || {}` installs on the first call. */
  datatype Opts = Opts(registry: map<string, Type>, namespace: Option<string>)

  /** The outcome of a compilation step and the options object after it;
      the options are shared by reference, so a failing step leaves them as
      far as it got. */
  datatype Compiled<+T> = Compiled(result: Result<T>, opts: Opts)

  /** A property that is `undefined`, converted to a string (as the
      regular-expression match and the generated code do). */
  function Text(s: Option<string>): string {
    match s
    case None => "undefined"
    case Some(t) => t
  }

  /** Type.forSchema. */
  function Compile(s: Schema, opts: Opts): (r: Compiled<Type>)
    ensures r.result.Ok? ==> r.opts.namespace == opts.namespace
    ensures opts.registry.Keys <= r.opts.registry.Keys
    ensures IsType(s) ==> r == Compiled(Ok(s.ty), opts)
    ensures s.TypeObject? && !IsType(s) ==> r.result == Err(NotAConstructor)
    ensures s.Undefined? ==> r.result == Err(UndefinedAccess)
    ensures s.Name? ==> (r.result.Ok? <==> s.name == "string")
    ensures s.Name? && r.result.Ok? ==>
              s.name in r.opts.registry && r.opts.registry[s.name] == r.result.value
    decreases s, 2, 0
  {
    match s
    case Undefined => Compiled(Err(UndefinedAccess), opts)
    case TypeObject(ty) =>
      if IsType(s) then Compiled(Ok(ty), opts) else Compiled(Err(NotAConstructor), opts)
    case Name(n) =>
      var c := Construct(s, Descriptor(Some(n), Undefined, None, NoFields), opts);
      if c.result.Err? then c
      else Compiled(c.result, c.opts.(registry := c.opts.registry[n := c.result.value]))
    case Object(d) => Construct(s, d, opts)
  }

  /** `new TYPES[d.type](d, opts)`, for a descriptor `d` that is `parent`
      itself or the descriptor `{type: name}` built for a string `parent`. */
  function Construct(parent: Schema, d: Descriptor, opts: Opts): (r: Compiled<Type>)
    requires parent == Object(d)
          || (parent.Name? && d == Descriptor(Some(parent.name), Undefined, None, NoFields))
    ensures r.result.Ok? ==> r.opts.namespace == opts.namespace
    ensures opts.registry.Keys <= r.opts.registry.Keys
    ensures r.result.Ok? ==> d.kind.Some? && d.kind.value in {"string", "array", "record"}
    ensures d.kind == Some("string") ==> r == Compiled(Ok(StringType), opts)
    ensures d.kind == Some("array") ==>
              (r.result.Ok? <==> !d.items.Undefined? && Compile(d.items, opts).result.Ok?)
    ensures d.kind == Some("array") && r.result.Ok? ==>
              r.result.value == ArrayType(Compile(d.items, opts).result.value)
    decreases parent, 1, 1
  {
    match d.kind
    case Some("string") => Compiled(Ok(StringType), opts)
    case Some("array") =>
      if d.items.Undefined? then Compiled(Err(UndefinedAccess), opts)
      else
        var c := Compile(d.items, opts);
        if c.result.Err? then Compiled(Err(c.result.error), c.opts)
        else Compiled(Ok(ArrayType(c.result.value)), c.opts)
    case Some("record") => ConstructRecord(parent, d, opts)
    case _ => Compiled(Err(NotAConstructor), opts)
  }

  /** The RecordType constructor: enter the namespace the name implies (if
      any), compile the fields in order, and restore the namespace saved on
      entry. */
  function ConstructRecord(parent: Schema, d: Descriptor, opts: Opts): (r: Compiled<Type>)
    requires parent == Object(d)
          || (parent.Name? && d == Descriptor(Some(parent.name), Undefined, None, NoFields))
    ensures r.result.Ok? ==> r.opts.namespace == opts.namespace && r.result.value.RecordType?
    ensures d.fields.NoFields? ==>
              var ns := ImpliedNamespace(Text(d.name));
              r == Compiled(Err(UndefinedAccess), if ns.Some? then opts.(namespace := ns) else opts)
    ensures opts.registry.Keys <= r.opts.registry.Keys
    decreases parent, 1, 0
  {
    var ns := ImpliedNamespace(Text(d.name));
    var inner := if ns.Some? then opts.(namespace := ns) else opts;
    match d.fields
    case NoFields => Compiled(Err(UndefinedAccess), inner)
    case FieldList(list) =>
      var c := CompileFields(parent, list, 0, [], inner);
      if c.result.Err? then Compiled(Err(c.result.error), c.opts)
      else Compiled(Ok(RecordType(c.result.value)), c.opts.(namespace := opts.namespace))
  }

  /** `schema.fields.map(f => new Field(f, opts))` from field `i` on, with
      the fields compiled so far in `acc`. */
  function CompileFields(parent: Schema, list: seq<FieldSchema>, i: nat, acc: seq<Field>, opts: Opts)
    : (r: Compiled<seq<Field>>)
    requires parent.Object? && parent.d.fields == FieldList(list) && i <= |list|
    requires |acc| == i
    ensures r.result.Ok? ==> r.opts.namespace == opts.namespace
    ensures opts.registry.Keys <= r.opts.registry.Keys
    ensures r.result.Ok? ==> |r.result.value| == |list| && r.result.value[..i] == acc
    ensures r.result.Ok? ==> forall j :: i <= j < |list| ==> r.result.value[j].name == Text(list[j].name)
    decreases parent, 0, |list| - i
  {
    if i == |list| then Compiled(Ok(acc), opts)
    else
      assert list[i] in list;
      var c := Compile(list[i].schema, opts);
      if c.result.Err? then Compiled(Err(c.result.error), c.opts)
      else CompileFields(parent, list, i + 1, acc + [Field(Text(list[i].name), c.result.value)], c.opts)
  }

  /* ------------------------------------------------------------- encoding */

  /** Whether converting `v` to a primitive throws a TypeError, as it does
      when the value is interpolated into throwInvalidError's message or
      compared with `n >= 0` in writeLong. A model value is never a
      function, so an object's own `toString` shadows the inherited one
      and leaves no method that returns a primitive, under either hint
      (section 7.1.1.1 of ECMA-262); any other object converts to
      "[object Object]". An array converts through `join`, which converts
      every element that is not `undefined`. */
  predicate ToPrimitiveThrows(v: Value) {
    match v
    case VObject(m) => "toString" in m
    case VArray(xs) => exists i :: 0 <= i < |xs| && ToPrimitiveThrows(xs[i])
    case _ => false
  }

  /** `ty._write(tap, v)`: the bytes the writer appends to the tap. */
  function Write(ty: Type, v: Value): (r: Result<seq<byte>>)
    ensures ty.StringType? ==> (r.Ok? <==> v.VStr? && WriteString(v.s).Ok?)
    ensures ty.StringType? && v.VStr? ==> r == WriteString(v.s)
    ensures ty.StringType? && !v.VStr? && ToPrimitiveThrows(v) ==> r == Err(NoPrimitive)
    ensures ty.StringType? && !v.VStr? && !ToPrimitiveThrows(v) ==> r == Err(InvalidValue)
    ensures ty.ArrayType? && !v.VUndefined? && !Truthy(Prop(v, "length").value) ==> r == Ok([0])
    ensures ty.ArrayType? && v.VUndefined? ==> r == Err(UndefinedAccess)
    ensures ty.ArrayType? && v.VArray? && |v.elems| > 0 && r.Ok? ==>
              |r.value| >= 2 && r.value[|r.value| - 1] == 0
    ensures r.Ok? && !ty.RecordType? ==> |r.value| > 0
    decreases ty, 2, 0
  {
    match ty
    case StringType =>
      if v.VStr? then WriteString(v.s)
      else if ToPrimitiveThrows(v) then Err(NoPrimitive)
      else Err(InvalidValue)
    case ArrayType(items) =>
      var n :- Prop(v, "length");
      if !Truthy(n) then WriteLong(0)
      else if v.VArray? then
        var header :- WriteLong(|v.elems|);
        var body :- WriteItems(ty, v.elems, 0);
        var end := WriteLong(0).value;
        Ok(header + body + end)
      else WriteArrayLike(ty, v, n)
    case RecordType(_) => WriteFields(ty, v, 0)
  }

  /** ArrayType._write on a string or an object whose `length` is truthy:
      `writeLong(n)` and the loop bound `i < n` convert `n` to a number,
      and the items are the indexed reads `v[i]`. A number is itself and
      `true` is 1. An object without its own `toString` converts to NaN,
      whose zigzag image is -1, so writeLong never ends; one with its own
      `toString` makes the conversion throw (see `ToPrimitiveThrows`).
      Other conversions (a numeric string, an array) are not followed. */
  function WriteArrayLike(arr: Type, v: Value, n: Value): (r: Result<seq<byte>>)
    requires arr.ArrayType? && (v.VStr? || v.VObject?) && Truthy(n)
    ensures n.VObject? && "toString" !in n.props ==> r == Err(NonTermination)
    ensures n.VObject? && "toString" in n.props ==> r == Err(NoPrimitive)
    ensures r.Ok? ==> (n.VNum? || n.VBool?) && |r.value| > 0 && r.value[|r.value| - 1] == 0
    decreases arr, 1, 0
  {
    if n.VObject? then
      if "toString" in n.props then Err(NoPrimitive) else Err(NonTermination)
    else if !(n.VNum? || n.VBool?) then Err(Unmodelled)
    else
      var k := if n.VNum? then n.n else 1;
      var header :- WriteLong(k);
      var xs :- Elements(v, k);
      var body :- WriteItems(arr, xs, 0);
      Ok(header + body + WriteLong(0).value)
  }

  /** The indexed reads `v[0]`, ..., `v[k - 1]` of the writer's item loop
      (none when `k <= 0`), each a property read with the index's decimal
      digits as key. */
  function Elements(v: Value, k: int): (r: Result<seq<Value>>)
    ensures r.Ok? <==> IndexedReadsOk(v, k)
    ensures r.Ok? ==> |r.value| == if k <= 0 then 0 else k
    ensures r.Ok? ==> forall i :: 0 <= i < |r.value| ==> Prop(v, DecimalString(i)) == Ok(r.value[i])
    ensures r.Err? ==> r.error in {UndefinedAccess, Unmodelled}
  {
    if k <= 0 then Ok([])
    else if IndexedReadsOk(v, k) then
      Ok(seq(k, (i: int) requires 0 <= i < k => Prop(v, DecimalString(i)).value))
    else if v.VUndefined? then Err(UndefinedAccess)
    else Err(Unmodelled)
  }

  predicate IndexedReadsOk(v: Value, k: int) {
    forall i: nat :: i < k ==> Prop(v, DecimalString(i)).Ok?
  }

  /** The property key an index converts to: its decimal digits, most
      significant first, with no leading zero. */
  function DecimalString(i: nat): (r: string)
    ensures 1 <= |r| && IsDigits(r)
    ensures |r| > 1 ==> r[0] != '0'
    ensures r[|r| - 1] as int == '0' as int + i % 10
    ensures i < 10 <==> |r| == 1
  {
    if i < 10 then [('0' as int + i) as char]
    else DecimalString(i / 10) + [('0' as int + i % 10) as char]
  }

  /** The item loop of ArrayType._write, from item `i` on. */
  function WriteItems(arr: Type, xs: seq<Value>, i: nat): (r: Result<seq<byte>>)
    requires arr.ArrayType? && i <= |xs|
    ensures r.Ok? <==> forall j :: i <= j < |xs| ==> Write(arr.items, xs[j]).Ok?
    decreases arr, 0, |xs| - i
  {
    if i == |xs| then Ok([])
    else
      var b :- Write(arr.items, xs[i]);
      var rest :- WriteItems(arr, xs, i + 1);
      Ok(b + rest)
  }

  /** The generated record writer, from field `i` on: each field's value is
      looked up by name and written by the field's type, in declared order,
      with nothing in between. */
  function WriteFields(rec: Type, v: Value, i: nat): (r: Result<seq<byte>>)
    requires rec.RecordType? && i <= |rec.fields|
    ensures i < |rec.fields| && v.VUndefined? ==> r == Err(UndefinedAccess)
    decreases rec, 0, |rec.fields| - i
  {
    if i == |rec.fields| then Ok([])
    else
      var f := rec.fields[i];
      assert f in rec.fields;
      var x :- Prop(v, f.name);
      var b :- Write(f.ty, x);
      var rest :- WriteFields(rec, v, i + 1);
      Ok(b + rest)
  }

  /** Field `j`'s property read succeeds and its value is writable by the
      field's type. */
  predicate FieldWritable(rec: Type, v: Value, j: nat)
    requires rec.RecordType? && j < |rec.fields|
  {
    Prop(v, rec.fields[j].name).Ok? && Write(rec.fields[j].ty, Prop(v, rec.fields[j].name).value).Ok?
  }

  /** Type.prototype.toBuffer, with unbounded output. */
  function ToBuffer(ty: Type, v: Value): Result<seq<byte>> {
    Write(ty, v)
  }

  /* ------------------------------------------------------------- decoding */

  /** `ty._read(tap)` on a tap over `buf` at `pos`: the value and the new
      position. `fuel` bounds the number of loop rounds the array reader
      may take before the model gives up with OutOfFuel. */
  function Read(ty: Type, buf: seq<byte>, pos: int, fuel: nat): (r: Result<Decoded<Value>>)
    ensures ty.StringType? ==> r.Ok? && r.value.value.VStr?
    ensures r.Ok? && ty.ArrayType? ==>
              r.value.value.VUndefined? || (r.value.value.VArray? && |r.value.value.elems| > 0)
    ensures r.Ok? && ty.RecordType? ==> r.value.value.VObject?
    decreases fuel, ty, 2, 0
  {
    match ty
    case StringType =>
      var d := ReadString(buf, pos);
      Ok(Decoded(VStr(d.value), d.pos))
    case ArrayType(_) => ReadBlocks(ty, buf, pos, None, fuel)
    case RecordType(fields) =>
      var d :- ReadFields(ty, buf, pos, 0, map[], fuel);
      Ok(Decoded(VObject(d.value), d.pos))
  }

  /** The block loop of ArrayType._read. `acc` is the array read so far, or
      None while it is still `undefined`. A block count of zero ends the
      loop; a negative count is an invalid array length on the first block,
      and on a later block makes the item loop count down forever. */
  function ReadBlocks(arr: Type, buf: seq<byte>, pos: int, acc: Option<seq<Value>>, fuel: nat)
    : (r: Result<Decoded<Value>>)
    requires arr.ArrayType?
    requires acc.Some? ==> |acc.value| > 0
    ensures r.Ok? && acc.None? ==>
              r.value.value.VUndefined? || (r.value.value.VArray? && |r.value.value.elems| > 0)
    ensures r.Ok? && acc.Some? ==>
              r.value.value.VArray? && |r.value.value.elems| >= |acc.value|
              && r.value.value.elems[..|acc.value|] == acc.value
    ensures acc.None? && ReadLong(buf, pos).value < 0 ==> r == Err(InvalidArrayLength)
    ensures ReadLong(buf, pos).value == 0 ==>
              r == Ok(Decoded(if acc.None? then VUndefined else VArray(acc.value), ReadLong(buf, pos).pos))
    decreases fuel, arr, 1, 0
  {
    var n := ReadLong(buf, pos);
    if n.value == 0 then
      Ok(Decoded(if acc.None? then VUndefined else VArray(acc.value), n.pos))
    else if n.value < 0 then
      if acc.None? then Err(InvalidArrayLength)
      else ReadForever(arr, buf, n.pos, fuel)
    else
      var start := if acc.None? then [] else acc.value;
      var d :- ReadItems(arr, buf, n.pos, n.value, start, fuel);
      if fuel == 0 then Err(OutOfFuel)
      else ReadBlocks(arr, buf, d.pos, Some(d.value), fuel - 1)
  }

  /** `while (n--)` for a negative `n`: items are read until one of them
      throws, which is the only way the loop ends. */
  function ReadForever(arr: Type, buf: seq<byte>, pos: int, fuel: nat): (r: Result<Decoded<Value>>)
    requires arr.ArrayType?
    ensures r.Err?
    decreases fuel, arr, 0, 0
  {
    if fuel == 0 then Err(OutOfFuel)
    else
      var d :- Read(arr.items, buf, pos, fuel);
      ReadForever(arr, buf, d.pos, fuel - 1)
  }

  /** The item loop of one block of `n` items, appending to `acc`. */
  function ReadItems(arr: Type, buf: seq<byte>, pos: int, n: nat, acc: seq<Value>, fuel: nat)
    : (r: Result<Decoded<seq<Value>>>)
    requires arr.ArrayType?
    ensures r.Ok? ==> |r.value.value| == |acc| + n && r.value.value[..|acc|] == acc
    decreases fuel, arr, 0, n
  {
    if n == 0 then Ok(Decoded(acc, pos))
    else
      var d :- Read(arr.items, buf, pos, fuel);
      ReadItems(arr, buf, d.pos, n - 1, acc + [d.value], fuel)
  }

  /** The generated record reader and constructor, from field `i` on: each
      field's type reads in declared order and the value is stored under
      the field's name (a later field of the same name wins). */
  function ReadFields(rec: Type, buf: seq<byte>, pos: int, i: nat, acc: map<string, Value>, fuel: nat)
    : (r: Result<Decoded<map<string, Value>>>)
    requires rec.RecordType? && i <= |rec.fields|
    decreases fuel, rec, 0, |rec.fields| - i
  {
    if i == |rec.fields| then Ok(Decoded(acc, pos))
    else
      var f := rec.fields[i];
      assert f in rec.fields;
      var d :- Read(f.ty, buf, pos, fuel);
      ReadFields(rec, buf, d.pos, i + 1, acc[f.name := d.value], fuel)
  }

  /** Type.prototype.fromBuffer: decode from the start of `buf`; fail if the
      decoder ran past the end, and, unless `noCheck`, if it stopped short. */
  function FromBuffer(ty: Type, buf: seq<byte>, noCheck: bool, fuel: nat): (r: Result<Value>)
    ensures r.Ok? ==> Read(ty, buf, 0, fuel).Ok? && Read(ty, buf, 0, fuel).value.value == r.value
    ensures r.Ok? ==> Read(ty, buf, 0, fuel).value.pos <= |buf|
    ensures r.Ok? && !noCheck ==> Read(ty, buf, 0, fuel).value.pos == |buf|
    ensures Read(ty, buf, 0, fuel).Err? ==> r == Err(Read(ty, buf, 0, fuel).error)
    ensures Read(ty, buf, 0, fuel).Ok? && Read(ty, buf, 0, fuel).value.pos > |buf| ==>
              r == Err(TruncatedBuffer)
    ensures Read(ty, buf, 0, fuel).Ok? && Read(ty, buf, 0, fuel).value.pos < |buf| ==>
              r == (if noCheck then Ok(Read(ty, buf, 0, fuel).value.value) else Err(TrailingData))
  {
    var tap := NewTap(buf, None).value;
    var d :- Read(ty, buf, tap.pos, fuel);
    if !Tap(buf, d.pos).IsValid() then Err(TruncatedBuffer)
    else if !noCheck && d.pos < |buf| then Err(TrailingData)
    else Ok(d.value)
  }

  /* ----------------------------------------------------- value correspondence */

  /** The values the codec carries faithfully: ASCII strings and arrays short
      enough for the 28-bit length reader, and objects that have every field
      of the record. */
  predicate Conforms(ty: Type, v: Value)
    decreases ty
  {
    match ty
    case StringType => v.VStr? && IsAscii(v.s) && |v.s| < TWO_27
    case ArrayType(items) =>
      v.VArray? && |v.elems| < TWO_27 &&
      forall j :: 0 <= j < |v.elems| ==> Conforms(items, v.elems[j])
    case RecordType(fields) =>
      v.VObject? &&
      forall j :: 0 <= j < |fields| ==>
        fields[j].name in v.props && Conforms(fields[j].ty, v.props[fields[j].name])
  }

  /** What decoding the encoding of a conforming `v` yields: empty arrays
      become `undefined`, and a record keeps only its fields' properties. */
  function Canonical(ty: Type, v: Value): Value
    decreases ty, 1, 0
  {
    match ty
    case StringType => v
    case ArrayType(items) =>
      if v.VArray? && |v.elems| > 0 then VArray(CanonicalItems(items, v.elems))
      else if v.VArray? then VUndefined
      else v
    case RecordType(fields) =>
      if v.VObject? then VObject(CanonicalFields(ty, v.props, 0, map[])) else v
  }

  /** The items of a non-empty array, each made canonical. */
  function CanonicalItems(items: Type, xs: seq<Value>): (r: seq<Value>)
    ensures |r| == |xs|
    decreases items, 2, 0
  {
    seq(|xs|, j requires 0 <= j < |xs| => Canonical(items, xs[j]))
  }

  /** The record part of Canonical, from field `i` on. */
  function CanonicalFields(rec: Type, m: map<string, Value>, i: nat, acc: map<string, Value>)
    : (r: map<string, Value>)
    requires rec.RecordType? && i <= |rec.fields|
    decreases rec, 0, |rec.fields| - i
  {
    if i == |rec.fields| then acc
    else
      var f := rec.fields[i];
      assert f in rec.fields;
      var x := if f.name in m then m[f.name] else VUndefined;
      CanonicalFields(rec, m, i + 1, acc[f.name := Canonical(f.ty, x)])
  }

  /** The values decoding gives back unchanged: non-empty arrays, and
      objects whose properties are exactly the record's fields. */
  predicate Exact(ty: Type, v: Value)
    decreases ty
  {
    match ty
    case StringType => true
    case ArrayType(items) =>
      v.VArray? && |v.elems| > 0 &&
      forall j :: 0 <= j < |v.elems| ==> Exact(items, v.elems[j])
    case RecordType(fields) =>
      v.VObject? && v.props.Keys == FieldNames(fields) &&
      forall j :: 0 <= j < |fields| ==> Exact(fields[j].ty, v.props[fields[j].name])
  }
}

=== FILE: types_laws.dfy ===
/** What `fromBuffer` and `toBuffer` promise as a pair, the shape of a
    decoded record, and the laws of the schema compiler. */
module TypesLaws {
  import opened Base
  import opened Utils
  import opened UtilsProofs
  import opened Types
  import opened TypesProofs

  /* -------------------------------------------------------- record shape */

  /** The record reader stores one property per field name, on top of what
      it started with. */
  lemma {:induction false} ReadFieldsKeys(rec: Type, buf: seq<byte>, p: int, i: nat,
                                          acc: map<string, Value>, fuel: nat)
    requires rec.RecordType? && i <= |rec.fields| && ReadFields(rec, buf, p, i, acc, fuel).Ok?
    ensures ReadFields(rec, buf, p, i, acc, fuel).value.value.Keys == acc.Keys + NamesFrom(rec.fields, i)
    decreases |rec.fields| - i
  {
    if i < |rec.fields| {
      var f := rec.fields[i];
      var d := Read(f.ty, buf, p, fuel).value;
      ReadFieldsStep(rec, buf, p, i, acc, fuel, d);
      ReadFieldsKeys(rec, buf, d.pos, i + 1, acc[f.name := d.value], fuel);
    }
  }

  /** A decoded record has exactly the record's field names as properties. */
  lemma ReadRecordKeys(rec: Type, buf: seq<byte>, p: int, fuel: nat)
    requires rec.RecordType? && Read(rec, buf, p, fuel).Ok?
    ensures Read(rec, buf, p, fuel).value.value.props.Keys == FieldNames(rec.fields)
  {
    ReadFieldsKeys(rec, buf, p, 0, map[], fuel);
  }

  /** CanonicalFields adds one property per field name. */
  lemma {:induction false} CanonicalFieldsKeys(rec: Type, m: map<string, Value>, i: nat,
                                               acc: map<string, Value>)
    requires rec.RecordType? && i <= |rec.fields|
    ensures CanonicalFields(rec, m, i, acc).Keys == acc.Keys + NamesFrom(rec.fields, i)
    decreases |rec.fields| - i
  {
    if i < |rec.fields| {
      var f := rec.fields[i];
      var x := if f.name in m then m[f.name] else VUndefined;
      CanonicalFieldsKeys(rec, m, i + 1, acc[f.name := Canonical(f.ty, x)]);
    }
  }

  /* ------------------------------------------------------ exact values */

  /** An exact value is its own canonical form, so it decodes unchanged. */
  lemma {:induction false} ExactIsCanonical(ty: Type, v: Value)
    requires Conforms(ty, v) && Exact(ty, v)
    ensures Canonical(ty, v) == v
    decreases ty, 1
  {
    match ty
    case StringType =>
    case ArrayType(items) =>
      var xs := v.elems;
      forall j | 0 <= j < |xs|
        ensures CanonicalItems(items, xs)[j] == xs[j]
      {
        ExactIsCanonical(items, xs[j]);
      }
    case RecordType(fields) =>
      var m := v.props;
      forall j | 0 <= j < |fields|
        ensures Canonical(fields[j].ty, m[fields[j].name]) == m[fields[j].name]
      {
        ExactIsCanonical(fields[j].ty, m[fields[j].name]);
      }
      CanonicalFieldsWithin(ty, m, 0, map[]);
      CanonicalFieldsKeys(ty, m, 0, map[]);
      var c := CanonicalFields(ty, m, 0, map[]);
      assert c.Keys == m.Keys;
      assert forall k | k in c :: c[k] == m[k];
  }

  /** When every field's value is already canonical, CanonicalFields copies
      values of `m` only. */
  lemma {:induction false} CanonicalFieldsWithin(rec: Type, m: map<string, Value>, i: nat,
                                                 acc: map<string, Value>)
    requires rec.RecordType? && i <= |rec.fields|
    requires forall j :: i <= j < |rec.fields| ==>
               rec.fields[j].name in m && Canonical(rec.fields[j].ty, m[rec.fields[j].name]) == m[rec.fields[j].name]
    requires forall k | k in acc :: k in m && acc[k] == m[k]
    ensures forall k | k in CanonicalFields(rec, m, i, acc) :: k in m && CanonicalFields(rec, m, i, acc)[k] == m[k]
    decreases |rec.fields| - i
  {
    if i < |rec.fields| {
      var f := rec.fields[i];
      CanonicalFieldsStep(rec, m, i, acc);
      CanonicalFieldsWithin(rec, m, i + 1, acc[f.name := m[f.name]]);
    }
  }

  /* ------------------------------------------------------------ fromBuffer */

  lemma AtWhole(buf: seq<byte>)
    ensures At(buf, 0, buf)
  {
    AtSlice(buf, 0, buf);
    assert buf[0..|buf|] == buf;
  }

  /** toBuffer then fromBuffer: a conforming value is encoded, and strict
      decoding of its encoding gives back its canonical form. */
  lemma FromBufferRoundTrip(ty: Type, v: Value, fuel: nat)
    requires Conforms(ty, v) && fuel >= 1
    ensures ToBuffer(ty, v).Ok?
    ensures FromBuffer(ty, ToBuffer(ty, v).value, false, fuel) == Ok(Canonical(ty, v))
  {
    WriteConforming(ty, v);
    var e := Write(ty, v).value;
    AtWhole(e);
    ReadWriteAt(ty, v, e, 0, |e|, fuel);
  }

  /** Values with no empty array and no extra property come back unchanged. */
  lemma FromBufferExact(ty: Type, v: Value, fuel: nat)
    requires Conforms(ty, v) && Exact(ty, v) && fuel >= 1
    ensures ToBuffer(ty, v).Ok?
    ensures FromBuffer(ty, ToBuffer(ty, v).value, false, fuel) == Ok(v)
  {
    FromBufferRoundTrip(ty, v, fuel);
    ExactIsCanonical(ty, v);
  }

  /** Bytes after an encoding are trailing data, which only `noCheck`
      lets through. */
  lemma FromBufferTrailing(ty: Type, v: Value, extra: seq<byte>, noCheck: bool, fuel: nat)
    requires Conforms(ty, v) && fuel >= 1 && |extra| > 0
    ensures ToBuffer(ty, v).Ok?
    ensures FromBuffer(ty, ToBuffer(ty, v).value + extra, noCheck, fuel)
         == if noCheck then Ok(Canonical(ty, v)) else Err(TrailingData)
  {
    WriteConforming(ty, v);
    var e := Write(ty, v).value;
    AtMiddle([], e, extra);
    assert [] + e + extra == e + extra;
    ReadWriteAt(ty, v, e + extra, 0, |e|, fuel);
  }

  /** A string encoding missing its last byte is a truncated buffer, with or
      without `noCheck`. */
  lemma FromBufferTruncatedString(s: string, e: seq<byte>, noCheck: bool, fuel: nat)
    requires IsAscii(s) && 1 <= |s| < TWO_27 && ToBuffer(StringType, VStr(s)) == Ok(e)
    ensures FromBuffer(StringType, e[..|e| - 1], noCheck, fuel) == Err(TruncatedBuffer)
  {
    ReadStringOverrun([], s, e);
    assert [] + e[..|e| - 1] == e[..|e| - 1];
  }

  /** An empty array is written as the single end marker, which decodes to
      `undefined`. */
  lemma EmptyArrayIsUndefined(items: Type, fuel: nat)
    ensures ToBuffer(ArrayType(items), VArray([])) == Ok([0])
    ensures FromBuffer(ArrayType(items), [0], false, fuel) == Ok(VUndefined)
  {
    WriteLongExamples();
    ReadLongZeroAt([0], 0);
  }

  /** A block of `xs`, its count and its items, read after the items `pre`
      of earlier blocks: the count ends at `p1`, the items at `p2`. */
  lemma {:induction false} ReadBlockAt(arr: Type, xs: seq<Value>, buf: seq<byte>, p: int, p1: int, p2: int,
                                       pre: seq<Value>, fuel: nat)
    requires arr.ArrayType? && fuel >= 1 && 0 < |xs| < TWO_27
    requires forall j :: 0 <= j < |xs| ==> Conforms(arr.items, xs[j])
    requires WriteItems(arr, xs, 0).Ok?
    requires At(buf, p, VarintBytes(2 * |xs|) + WriteItems(arr, xs, 0).value)
    requires p1 == p + |VarintBytes(2 * |xs|)| && p2 == p1 + |WriteItems(arr, xs, 0).value|
    ensures ReadLong(buf, p) == Decoded(|xs|, p1)
    ensures ReadItems(arr, buf, p1, |xs|, pre, fuel) == Ok(Decoded(pre + CanonicalItems(arr.items, xs), p2))
  {
    AtParts(buf, p, VarintBytes(2 * |xs|), WriteItems(arr, xs, 0).value, p1);
    ReadCountAt(buf, p, |xs|, p1);
    assert pre + CanonicalItems(arr.items, xs)[..0] == pre;
    ReadItemsAt(arr, xs, 0, |xs|, pre, pre, buf, p1, p2, fuel);
  }

  /** The block loop concatenates blocks, as other Avro writers may split an
      array into several. The first round: reading the array at `p` goes on
      at `p2` with the first block's items `a`. */
  lemma {:induction false} ReadFirstBlock(arr: Type, xs: seq<Value>, buf: seq<byte>, p: int, p2: int,
                                          e: seq<byte>, a: seq<Value>, fuel: nat)
    requires arr.ArrayType? && fuel >= 1 && 0 < |xs| < TWO_27
    requires forall j :: 0 <= j < |xs| ==> Conforms(arr.items, xs[j])
    requires BlockBytes(arr, xs, e) && At(buf, p, e) && p2 == p + |e|
    requires a == CanonicalItems(arr.items, xs)
    ensures |a| > 0
    ensures Read(arr, buf, p, fuel) == ReadBlocks(arr, buf, p2, Some(a), fuel - 1)
  {
    ReadBlockThen(arr, xs, buf, p, p2, e, None, [], a, fuel);
    assert [] + a == a;
  }

  /** A last block `e` of `ys` at `p2` and the end marker at `p4` complete
      the array `a` read so far. */
  lemma {:induction false} ReadLastBlock(arr: Type, ys: seq<Value>, buf: seq<byte>, p2: int, p4: int,
                                         e: seq<byte>, a: seq<Value>, b: seq<Value>, fuel: nat)
    requires arr.ArrayType? && fuel >= 1 && 0 < |ys| < TWO_27 && |a| > 0
    requires forall j :: 0 <= j < |ys| ==> Conforms(arr.items, ys[j])
    requires BlockBytes(arr, ys, e) && At(buf, p2, e) && At(buf, p4, [0]) && p4 == p2 + |e|
    requires b == CanonicalItems(arr.items, ys)
    ensures ReadBlocks(arr, buf, p2, Some(a), fuel) == Ok(Decoded(VArray(a + b), p4 + 1))
  {
    ReadBlockThen(arr, ys, buf, p2, p4, e, Some(a), a, b, fuel);
    ReadBlocksEnd(arr, buf, p4, a + b, fuel - 1);
  }

  /** `e` is the block ArrayType._write makes of `xs`: its count, then its
      items. */
  predicate BlockBytes(arr: Type, xs: seq<Value>, e: seq<byte>)
    requires arr.ArrayType?
  {
    WriteItems(arr, xs, 0).Ok? && e == VarintBytes(2 * |xs|) + WriteItems(arr, xs, 0).value
  }

  /** The block loop over one block `e` of `xs` from `p` to `p2`: the next
      round starts at `p2` with the block's items `a` appended to the array
      so far, `pre`. */
  lemma {:induction false} ReadBlockThen(arr: Type, xs: seq<Value>, buf: seq<byte>, p: int, p2: int,
                                         e: seq<byte>, acc: Option<seq<Value>>, pre: seq<Value>, a: seq<Value>,
                                         fuel: nat)
    requires arr.ArrayType? && fuel >= 1 && 0 < |xs| < TWO_27 && (acc.Some? ==> |acc.value| > 0)
    requires forall j :: 0 <= j < |xs| ==> Conforms(arr.items, xs[j])
    requires BlockBytes(arr, xs, e) && At(buf, p, e) && p2 == p + |e|
    requires pre == (if acc.None? then [] else acc.value) && a == CanonicalItems(arr.items, xs)
    ensures ReadBlocks(arr, buf, p, acc, fuel) == ReadBlocks(arr, buf, p2, Some(pre + a), fuel - 1)
  {
    var p1 := p + |VarintBytes(2 * |xs|)|;
    ReadBlockAt(arr, xs, buf, p, p1, p2, pre, fuel);
    ReadBlocksNext(arr, buf, p, |xs|, p1, acc, pre + a, p2, fuel);
  }

  /** The end marker closes an array whose items so far are `acc`. */
  lemma ReadBlocksEnd(arr: Type, buf: seq<byte>, p: int, acc: seq<Value>, fuel: nat)
    requires arr.ArrayType? && |acc| > 0 && At(buf, p, [0])
    ensures ReadBlocks(arr, buf, p, Some(acc), fuel) == Ok(Decoded(VArray(acc), p + 1))
  {
    ReadLongZeroAt(buf, p);
  }

  /** A block of `n > 0` items read from `p1` to `q` passes the array read
      so far on to the next block count at `q`. */
  lemma ReadBlocksNext(arr: Type, buf: seq<byte>, p: int, n: int, p1: int, acc: Option<seq<Value>>,
                       items: seq<Value>, q: int, fuel: nat)
    requires arr.ArrayType? && n > 0 && fuel >= 1 && (acc.Some? ==> |acc.value| > 0)
    requires ReadLong(buf, p) == Decoded(n, p1)
    requires ReadItems(arr, buf, p1, n, if acc.None? then [] else acc.value, fuel) == Ok(Decoded(items, q))
    ensures |items| > 0
    ensures ReadBlocks(arr, buf, p, acc, fuel) == ReadBlocks(arr, buf, q, Some(items), fuel - 1)
  {
  }

  /* ------------------------------------------------------------- compiler */

  /** The compiler reads and writes the registry and the namespace, but
      what a schema compiles to does not depend on them. */
  lemma {:induction false} CompileIgnoresOpts(s: Schema, o1: Opts, o2: Opts)
    ensures Compile(s, o1).result == Compile(s, o2).result
    decreases s, 2, 0
  {
    match s
    case Undefined =>
    case TypeObject(_) =>
    case Name(n) =>
      ConstructIgnoresOpts(s, Descriptor(Some(n), Undefined, None, NoFields), o1, o2);
    case Object(d) =>
      ConstructIgnoresOpts(s, d, o1, o2);
  }

  lemma {:induction false} ConstructIgnoresOpts(parent: Schema, d: Descriptor, o1: Opts, o2: Opts)
    requires parent == Object(d)
          || (parent.Name? && d == Descriptor(Some(parent.name), Undefined, None, NoFields))
    ensures Construct(parent, d, o1).result == Construct(parent, d, o2).result
    decreases parent, 1, 1
  {
    if d.kind == Some("array") && !d.items.Undefined? {
      CompileIgnoresOpts(d.items, o1, o2);
    } else if d.kind == Some("record") {
      ConstructRecordIgnoresOpts(parent, d, o1, o2);
    }
  }

  lemma {:induction false} ConstructRecordIgnoresOpts(parent: Schema, d: Descriptor, o1: Opts, o2: Opts)
    requires parent == Object(d)
          || (parent.Name? && d == Descriptor(Some(parent.name), Undefined, None, NoFields))
    ensures ConstructRecord(parent, d, o1).result == ConstructRecord(parent, d, o2).result
    decreases parent, 1, 0
  {
    if d.fields.FieldList? {
      var ns := ImpliedNamespace(Text(d.name));
      var i1 := if ns.Some? then o1.(namespace := ns) else o1;
      var i2 := if ns.Some? then o2.(namespace := ns) else o2;
      CompileFieldsIgnoresOpts(parent, d.fields.list, 0, [], i1, i2);
    }
  }

  lemma {:induction false} CompileFieldsIgnoresOpts(parent: Schema, list: seq<FieldSchema>, i: nat,
                                                    acc: seq<Field>, o1: Opts, o2: Opts)
    requires parent.Object? && parent.d.fields == FieldList(list) && i <= |list| && |acc| == i
    ensures CompileFields(parent, list, i, acc, o1).result == CompileFields(parent, list, i, acc, o2).result
    decreases parent, 0, |list| - i
  {
    if i < |list| {
      assert list[i] in list;
      CompileIgnoresOpts(list[i].schema, o1, o2);
      var c1 := Compile(list[i].schema, o1);
      var c2 := Compile(list[i].schema, o2);
      if c1.result.Ok? {
        var acc' := acc + [Field(Text(list[i].name), c1.result.value)];
        CompileFieldsIgnoresOpts(parent, list, i + 1, acc', c1.opts, c2.opts);
      }
    }
  }

  /** `schema.fields.map(f => new Field(f, opts))`: the list compiles
      exactly when every field's schema compiles, and then field `j` is
      named by the `name` of the `j`-th field schema and has the type that
      schema compiles to, under any options. */
  lemma {:induction false} CompileFieldsMeaning(parent: Schema, list: seq<FieldSchema>, i: nat,
                                                acc: seq<Field>, opts: Opts, o: Opts)
    requires parent.Object? && parent.d.fields == FieldList(list) && i <= |list| && |acc| == i
    ensures CompileFields(parent, list, i, acc, opts).result.Ok? <==>
              forall j :: i <= j < |list| ==> Compile(list[j].schema, o).result.Ok?
    ensures var r := CompileFields(parent, list, i, acc, opts).result;
            r.Ok? ==> forall j :: i <= j < |list| ==>
                        r.value[j] == Field(Text(list[j].name), Compile(list[j].schema, o).result.value)
    decreases |list| - i
  {
    if i < |list| {
      assert list[i] in list;
      CompileIgnoresOpts(list[i].schema, opts, o);
      var c := Compile(list[i].schema, opts);
      if c.result.Ok? {
        var acc' := acc + [Field(Text(list[i].name), c.result.value)];
        CompileFieldsMeaning(parent, list, i + 1, acc', c.opts, o);
        var r := CompileFields(parent, list, i + 1, acc', c.opts).result;
        if r.Ok? {
          assert r.value[i] == r.value[..i + 1][i] == acc'[i];
        }
      }
    }
  }

  /** RecordType's constructor on `{type: "record", fields: list}`: the
      record has one field per field schema, in order, each with the
      schema's name and compiled type; it fails exactly when one field's
      schema fails. */
  lemma CompileRecord(d: Descriptor, opts: Opts)
    requires d.kind == Some("record") && d.fields.FieldList?
    ensures Compile(Object(d), opts).result.Ok? <==>
              forall j :: 0 <= j < |d.fields.list| ==> Compile(d.fields.list[j].schema, opts).result.Ok?
    ensures var r := Compile(Object(d), opts).result;
            var list := d.fields.list;
            r.Ok? ==> r.value.RecordType? && |r.value.fields| == |list|
                      && forall j :: 0 <= j < |list| ==>
                           r.value.fields[j] == Field(Text(list[j].name), Compile(list[j].schema, opts).result.value)
  {
    var ns := ImpliedNamespace(Text(d.name));
    var inner := if ns.Some? then opts.(namespace := ns) else opts;
    CompileFieldsMeaning(Object(d), d.fields.list, 0, [], inner, opts);
    var c := CompileFields(Object(d), d.fields.list, 0, [], inner);
    assert Compile(Object(d), opts).result == ConstructRecord(Object(d), d, opts).result;
    assert c.result.Ok? ==> ConstructRecord(Object(d), d, opts).result == Ok(RecordType(c.result.value));
  }

  /** isType holds only of compiled records, the one type that defines
      `_update`: forSchema hands a compiled record back as it is, while a
      compiled string or array type is taken for a descriptor without a
      `type` and is not a constructor. */
  lemma RecompileOnlyRecords(ty: Type, opts: Opts)
    ensures IsType(TypeObject(ty)) <==> ty.RecordType?
    ensures Compile(TypeObject(ty), opts)
         == if ty.RecordType? then Compiled(Ok(ty), opts) else Compiled(Err(NotAConstructor), opts)
  {
  }

  /** Names are not resolved: a string schema is compiled as `{type: name}`,
      so only the three variant names get that far, and of those only
      "string" compiles, whatever the registry holds. */
  lemma NamedReferenceFails(n: string, opts: Opts)
    ensures n == "string" ==> Compile(Name(n), opts)
                              == Compiled(Ok(StringType), opts.(registry := opts.registry[n := StringType]))
    ensures n == "array" || n == "record" ==> Compile(Name(n), opts).result == Err(UndefinedAccess)
    ensures n != "string" && n != "array" && n != "record" ==>
              Compile(Name(n), opts).result == Err(NotAConstructor)
  {
  }

  /** A record named `a.b.C` compiles its fields in namespace `a.b`; when a
      field fails to compile, the constructor never reaches the line that
      restores the namespace, so the caller's options keep `a.b`. */
  lemma NamespaceLeaksOnError(opts: Opts)
    ensures var s := Object(Descriptor(Some("record"), Undefined, Some("a.b.C"),
                                       FieldList([FieldSchema(Some("x"), Name("Person"))])));
            Compile(s, opts) == Compiled(Err(NotAConstructor), opts.(namespace := Some("a.b")))
  {
    UtilsProofs.ImpliedNamespaceExamples();
  }

  /** A record named `C` implies no namespace, so a field that fails to
      compile leaves the caller's namespace as it was. */
  lemma NamespaceKeptWithoutDot(opts: Opts)
    ensures var s := Object(Descriptor(Some("record"), Undefined, Some("C"),
                                       FieldList([FieldSchema(Some("x"), Name("Person"))])));
            Compile(s, opts) == Compiled(Err(NotAConstructor), opts)
  {
    UtilsProofs.ImpliedNamespaceExamples();
  }

  /** The same record with a field that compiles: the namespace on entry is
      restored. */
  lemma NamespaceRestored(opts: Opts)
    ensures var s := Object(Descriptor(Some("record"), Undefined, Some("a.b.C"),
                                       FieldList([FieldSchema(Some("x"), Name("string"))])));
            Compile(s, opts)
            == Compiled(Ok(RecordType([Field("x", StringType)])),
                        opts.(registry := opts.registry["string" := StringType]))
  {
    UtilsProofs.ImpliedNamespaceExamples();
  }

  /* ------------------------------------------------------- the Tag schema */

  /** `{type: 'record', name: 'Tag', fields: [{name: 'name', type: 'string'},
      {name: 'value', type: 'string'}]}`. */
  const TagSchema: Schema :=
    Object(Descriptor(Some("record"), Undefined, Some("Tag"),
                      FieldList([FieldSchema(Some("name"), Name("string")),
                                 FieldSchema(Some("value"), Name("string"))])))

  const TagType: Type := RecordType([Field("name", StringType), Field("value", StringType)])

  /** `{type: 'array', items: Tag}`, with the compiled Tag as items. */
  const TagsSchema: Schema := Object(Descriptor(Some("array"), TypeObject(TagType), None, NoFields))

  function Tag(name: string, value: string): Value {
    VObject(map["name" := VStr(name), "value" := VStr(value)])
  }

  /** Both schemas compile on fresh options; the array takes the compiled
      record as it is. */
  lemma TagSchemasCompile()
    ensures Compile(TagSchema, Opts(map[], None))
         == Compiled(Ok(TagType), Opts(map["string" := StringType], None))
    ensures Compile(TagsSchema, Opts(map[], None)) == Compiled(Ok(ArrayType(TagType)), Opts(map[], None))
  {
    assert ImpliedNamespace("Tag") == None by {
      assert LastDot("Tag") == None;
    }
    var o0 := Opts(map[], None);
    var o1 := Opts(map["string" := StringType], None);
    assert o1.registry["string" := StringType] == o1.registry;
    var list := TagSchema.d.fields.list;
    assert Compile(Name("string"), o0) == Compiled(Ok(StringType), o1);
    assert Compile(Name("string"), o1) == Compiled(Ok(StringType), o1);
    var f0 := Field("name", StringType);
    var f1 := Field("value", StringType);
    assert CompileFields(TagSchema, list, 2, [f0, f1], o1) == Compiled(Ok(TagType.fields), o1);
    assert CompileFields(TagSchema, list, 1, [f0], o1) == Compiled(Ok(TagType.fields), o1) by {
      assert [f0] + [f1] == [f0, f1];
    }
    assert CompileFields(TagSchema, list, 0, [], o0) == Compiled(Ok(TagType.fields), o1) by {
      assert [] + [f0] == [f0];
    }
  }

  /** The sample tags decode back to the same names and values. */
  lemma TagsRoundTrip()
    ensures var sample := VArray([Tag("App-Name", "BUIDL"), Tag("App-Version", "0.0.0")]);
            && ToBuffer(ArrayType(TagType), sample).Ok?
            && FromBuffer(ArrayType(TagType), ToBuffer(ArrayType(TagType), sample).value, false, 1) == Ok(sample)
  {
    var sample := VArray([Tag("App-Name", "BUIDL"), Tag("App-Version", "0.0.0")]);
    TagConforms("App-Name", "BUIDL");
    TagConforms("App-Version", "0.0.0");
    assert forall j :: 0 <= j < |sample.elems| ==> Conforms(TagType, sample.elems[j]) && Exact(TagType, sample.elems[j]);
    FromBufferExact(ArrayType(TagType), sample, 1);
  }

  /** A tag of two short ASCII strings is carried exactly. */
  lemma TagConforms(name: string, value: string)
    requires IsAscii(name) && IsAscii(value) && |name| < TWO_27 && |value| < TWO_27
    ensures Conforms(TagType, Tag(name, value)) && Exact(TagType, Tag(name, value))
  {
    var fields := TagType.fields;
    assert FieldNames(fields) == {"name", "value"} by {
      assert NamesFrom(fields, 2) == {};
    }
  }
}

=== FILE: types_proofs.dfy ===
/** The codec round trip: every conforming value is encoded, and decoding
    its encoding, wherever it sits in a buffer, gives back its canonical
    form and ends right after it. */
module TypesProofs {
  import opened Base
  import opened Utils
  import opened UtilsProofs
  import opened Types

  /* ------------------------------------------------------------- encoding */

  /** A conforming value is always encoded. */
  lemma {:induction false} WriteConforming(ty: Type, v: Value)
    requires Conforms(ty, v)
    ensures Write(ty, v).Ok?
    decreases ty, 1, 0
  {
    match ty
    case StringType =>
    case ArrayType(items) =>
      if |v.elems| > 0 {
        WriteItemsConforming(ty, v.elems, 0);
      }
    case RecordType(_) =>
      WriteFieldsConforming(ty, v, 0);
  }

  lemma {:induction false} WriteItemsConforming(arr: Type, xs: seq<Value>, i: nat)
    requires arr.ArrayType? && i <= |xs|
    requires forall j :: 0 <= j < |xs| ==> Conforms(arr.items, xs[j])
    ensures WriteItems(arr, xs, i).Ok?
    decreases arr, 0, |xs| - i
  {
    if i < |xs| {
      WriteConforming(arr.items, xs[i]);
      WriteItemsConforming(arr, xs, i + 1);
    }
  }

  lemma {:induction false} WriteFieldsConforming(rec: Type, v: Value, i: nat)
    requires rec.RecordType? && i <= |rec.fields| && Conforms(rec, v)
    ensures WriteFields(rec, v, i).Ok?
    decreases rec, 0, |rec.fields| - i
  {
    if i < |rec.fields| {
      var f := rec.fields[i];
      assert f in rec.fields;
      assert Prop(v, f.name) == Ok(v.props[f.name]);
      WriteConforming(f.ty, v.props[f.name]);
      WriteFieldsConforming(rec, v, i + 1);
    }
  }

  /* ----------------------------------------------------------- round trip */

  /** Reading a conforming value's encoding from where it sits gives the
      value's canonical form and stops at `q`, right after the encoding. */
  lemma {:induction false} ReadWriteAt(ty: Type, v: Value, buf: seq<byte>, p: int, q: int, fuel: nat)
    requires Conforms(ty, v) && fuel >= 1
    requires Write(ty, v).Ok? && At(buf, p, Write(ty, v).value) && q == p + |Write(ty, v).value|
    ensures Read(ty, buf, p, fuel) == Ok(Decoded(Canonical(ty, v), q))
    decreases ty, 2, 0
  {
    if ty.StringType? {
      ReadStringCase(ty, v, buf, p, q, fuel);
    } else if ty.ArrayType? {
      ReadArrayCase(ty, v, buf, p, q, fuel);
    } else {
      ReadRecordAt(ty, v, buf, p, q, fuel);
    }
  }

  /** ReadWriteAt for a string type. */
  lemma ReadStringCase(ty: Type, v: Value, buf: seq<byte>, p: int, q: int, fuel: nat)
    requires ty.StringType? && Conforms(ty, v)
    requires Write(ty, v).Ok? && At(buf, p, Write(ty, v).value) && q == p + |Write(ty, v).value|
    ensures Read(ty, buf, p, fuel) == Ok(Decoded(Canonical(ty, v), q))
  {
    assert v == VStr(v.s) && Write(ty, v) == WriteString(v.s);
    ReadStringValueAt(v.s, buf, p, q, fuel);
  }

  /** A string type reads an ASCII string's encoding back as the string. */
  lemma ReadStringValueAt(s: string, buf: seq<byte>, p: int, q: int, fuel: nat)
    requires IsAscii(s) && |s| < TWO_27
    requires At(buf, p, WriteString(s).value) && q == p + |WriteString(s).value|
    ensures Read(StringType, buf, p, fuel) == Ok(Decoded(VStr(s), q))
  {
    ReadStringAt(buf, p, s, q);
    assert ReadString(buf, p) == Decoded(s, q);
  }

  /** ReadWriteAt for an array type. */
  lemma {:induction false} ReadArrayCase(ty: Type, v: Value, buf: seq<byte>, p: int, q: int, fuel: nat)
    requires ty.ArrayType? && Conforms(ty, v) && fuel >= 1
    requires Write(ty, v).Ok? && At(buf, p, Write(ty, v).value) && q == p + |Write(ty, v).value|
    ensures Read(ty, buf, p, fuel) == Ok(Decoded(Canonical(ty, v), q))
    decreases ty, 1, |v.elems| + 5
  {
    assert v == VArray(v.elems);
    ReadArrayAt(ty, v.elems, buf, p, q, fuel);
  }

  /** The record case of ReadWriteAt. */
  lemma {:induction false} ReadRecordAt(ty: Type, v: Value, buf: seq<byte>, p: int, q: int, fuel: nat)
    requires ty.RecordType? && Conforms(ty, v) && fuel >= 1
    requires Write(ty, v).Ok? && At(buf, p, Write(ty, v).value) && q == p + |Write(ty, v).value|
    ensures Read(ty, buf, p, fuel) == Ok(Decoded(Canonical(ty, v), q))
    decreases ty, 1, |ty.fields| + 1
  {
    assert v.VObject? && Write(ty, v) == WriteFields(ty, v, 0);
    ReadFieldsAt(ty, v, 0, buf, p, q, map[], fuel);
    RecordUnfold(ty, v, buf, p, fuel);
  }

  /** A record reads as the object of its fields and is canonical as the
      object of its canonical fields. */
  lemma RecordUnfold(rec: Type, v: Value, buf: seq<byte>, p: int, fuel: nat)
    requires rec.RecordType? && v.VObject?
    requires ReadFields(rec, buf, p, 0, map[], fuel).Ok?
    ensures Read(rec, buf, p, fuel)
         == Ok(Decoded(VObject(ReadFields(rec, buf, p, 0, map[], fuel).value.value),
                       ReadFields(rec, buf, p, 0, map[], fuel).value.pos))
    ensures Canonical(rec, v) == VObject(CanonicalFields(rec, v.props, 0, map[]))
  {
  }

  /** The array case: an empty array is the single zero block count and
      reads back as `undefined`; a non-empty one is one block and the end
      marker. */
  lemma {:induction false} ReadArrayAt(arr: Type, xs: seq<Value>, buf: seq<byte>, p: int, q: int, fuel: nat)
    requires arr.ArrayType? && Conforms(arr, VArray(xs)) && fuel >= 1
    requires Write(arr, VArray(xs)).Ok? && At(buf, p, Write(arr, VArray(xs)).value)
    requires q == p + |Write(arr, VArray(xs)).value|
    ensures Read(arr, buf, p, fuel) == Ok(Decoded(Canonical(arr, VArray(xs)), q))
    decreases arr, 1, |xs| + 4
  {
    ArrayShape(arr, xs);
    if |xs| == 0 {
      ReadLongZeroAt(buf, p);
      ReadEmptyArray(arr, buf, p, fuel);
    } else {
      ReadFilledArrayAt(arr, xs, buf, p, q, fuel, Write(arr, VArray(xs)).value);
    }
  }

  /** ReadArrayAt for a non-empty array whose encoding is `w`. */
  lemma {:induction false} ReadFilledArrayAt(arr: Type, xs: seq<Value>, buf: seq<byte>, p: int, q: int,
                                             fuel: nat, w: seq<byte>)
    requires arr.ArrayType? && fuel >= 1 && 0 < |xs| && 2 * |xs| < TWO_28
    requires forall j :: 0 <= j < |xs| ==> Conforms(arr.items, xs[j])
    requires WriteItems(arr, xs, 0).Ok?
    requires w == VarintBytes(2 * |xs|) + WriteItems(arr, xs, 0).value + [0]
    requires At(buf, p, w) && q == p + |w|
    ensures Read(arr, buf, p, fuel) == Ok(Decoded(VArray(CanonicalItems(arr.items, xs)), q))
    decreases arr, 1, |xs| + 3
  {
    var header := VarintBytes(2 * |xs|);
    var body := WriteItems(arr, xs, 0).value;
    var p1 := p + |header|;
    var p2 := p1 + |body|;
    ReadArrayEncoding(arr, xs, buf, p, p1, p2, fuel, header, body);
    assert |header + body + [0]| == |header| + |body| + 1;
  }

  /** A non-empty array's encoding: its block count `header` up to `p1`,
      its items `body` up to `p2`, and the end marker. */
  lemma ReadArrayEncoding(arr: Type, xs: seq<Value>, buf: seq<byte>, p: int, p1: int, p2: int, fuel: nat,
                          header: seq<byte>, body: seq<byte>)
    requires arr.ArrayType? && fuel >= 1 && |xs| > 0 && 2 * |xs| < TWO_28
    requires forall j :: 0 <= j < |xs| ==> Conforms(arr.items, xs[j])
    requires header == VarintBytes(2 * |xs|) && WriteItems(arr, xs, 0) == Ok(body)
    requires At(buf, p, header + body + [0]) && p1 == p + |header| && p2 == p1 + |body|
    ensures Read(arr, buf, p, fuel) == Ok(Decoded(VArray(CanonicalItems(arr.items, xs)), p2 + 1))
    decreases arr, 1, |xs| + 2
  {
    AtParts3(buf, p, header, body, [0], p1, p2);
    ReadCountAt(buf, p, |xs|, p1);
    ReadLongZeroAt(buf, p2);
    ReadArrayBlock(arr, xs, buf, p, p1, p2, fuel, body);
  }

  /** A block of all the items of `xs` from `p1` to `p2` and the end
      marker, after a block count that reads as `|xs|`. */
  lemma ReadArrayBlock(arr: Type, xs: seq<Value>, buf: seq<byte>, p: int, p1: int, p2: int, fuel: nat,
                       body: seq<byte>)
    requires arr.ArrayType? && fuel >= 1 && |xs| > 0
    requires forall j :: 0 <= j < |xs| ==> Conforms(arr.items, xs[j])
    requires WriteItems(arr, xs, 0) == Ok(body) && At(buf, p1, body) && p2 == p1 + |body|
    requires ReadLong(buf, p) == Decoded(|xs|, p1) && ReadLong(buf, p2) == Decoded(0, p2 + 1)
    ensures Read(arr, buf, p, fuel) == Ok(Decoded(VArray(CanonicalItems(arr.items, xs)), p2 + 1))
    decreases arr, 1, |xs| + 1
  {
    ReadItemsAt(arr, xs, 0, |xs|, [], [], buf, p1, p2, fuel);
    assert [] + CanonicalItems(arr.items, xs) == CanonicalItems(arr.items, xs);
    ReadNonEmptyArray(arr, buf, p, |xs|, p1, CanonicalItems(arr.items, xs), p2, fuel);
  }

  /** How an array value is encoded: the end marker alone when empty,
      otherwise the count, the items and the end marker. For a conforming
      array twice the count is below 2^28, so the count's bytes are plain
      varint bytes, and the canonical form is `undefined` when empty, else
      the canonical items. */
  lemma ArrayShape(arr: Type, xs: seq<Value>)
    requires arr.ArrayType? && Write(arr, VArray(xs)).Ok?
    ensures |xs| == 0 ==> Write(arr, VArray(xs)).value == [0]
    ensures |xs| > 0 ==>
              && WriteLong(|xs|).Ok?
              && WriteItems(arr, xs, 0).Ok?
              && Write(arr, VArray(xs)).value == WriteLong(|xs|).value + WriteItems(arr, xs, 0).value + [0]
    ensures Conforms(arr, VArray(xs)) ==>
              && (forall j :: 0 <= j < |xs| ==> Conforms(arr.items, xs[j]))
              && (|xs| == 0 ==> Canonical(arr, VArray(xs)) == VUndefined)
              && (|xs| > 0 ==> 2 * |xs| < TWO_28 && WriteLong(|xs|) == Ok(VarintBytes(2 * |xs|)))
              && (|xs| > 0 ==> Canonical(arr, VArray(xs)) == VArray(CanonicalItems(arr.items, xs)))
  {
    assert WriteLong(0) == Ok([0]) by {
      WriteLongExamples();
    }
  }


  /** A zero first block count reads as `undefined`. */
  lemma ReadEmptyArray(arr: Type, buf: seq<byte>, p: int, fuel: nat)
    requires arr.ArrayType? && ReadLong(buf, p).value == 0
    ensures Read(arr, buf, p, fuel) == Ok(Decoded(VUndefined, ReadLong(buf, p).pos))
  {
  }

  /** One block of `n` items followed by a zero count reads as the array of
      those items. */
  lemma ReadNonEmptyArray(arr: Type, buf: seq<byte>, p: int, n: int, p1: int, items: seq<Value>, q: int,
                          fuel: nat)
    requires arr.ArrayType? && n > 0 && fuel >= 1
    requires ReadLong(buf, p) == Decoded(n, p1)
    requires ReadItems(arr, buf, p1, n, [], fuel) == Ok(Decoded(items, q))
    requires ReadLong(buf, q) == Decoded(0, q + 1)
    ensures Read(arr, buf, p, fuel) == Ok(Decoded(VArray(items), q + 1))
  {
    assert ReadBlocks(arr, buf, q, Some(items), fuel - 1) == Ok(Decoded(VArray(items), q + 1));
  }

  /** The items of one block, from item `i` on (the `n` items still to
      read), read back in order after the items `pre` of earlier blocks and
      the canonical items before `i`, ending at `q`. */
  lemma {:induction false} ReadItemsAt(arr: Type, xs: seq<Value>, i: nat, n: nat, pre: seq<Value>,
                                       acc: seq<Value>, buf: seq<byte>, p: int, q: int, fuel: nat)
    requires arr.ArrayType? && i <= |xs| && fuel >= 1
    requires forall j :: 0 <= j < |xs| ==> Conforms(arr.items, xs[j])
    requires n == |xs| - i && acc == pre + CanonicalItems(arr.items, xs)[..i]
    requires WriteItems(arr, xs, i).Ok? && At(buf, p, WriteItems(arr, xs, i).value)
    requires q == p + |WriteItems(arr, xs, i).value|
    ensures ReadItems(arr, buf, p, n, acc, fuel) == Ok(Decoded(pre + CanonicalItems(arr.items, xs), q))
    decreases arr, 1, n, 1
  {
    if i == |xs| {
      var all := CanonicalItems(arr.items, xs);
      assert all[..i] == all;
    } else {
      ReadNextItemAt(arr, xs, i, n, pre, acc, buf, p, q, fuel);
    }
  }

  /** ReadItemsAt for an item `i` still to read: it reads back whole, then
      the rest follow. */
  lemma {:induction false} ReadNextItemAt(arr: Type, xs: seq<Value>, i: nat, n: nat, pre: seq<Value>,
                                          acc: seq<Value>, buf: seq<byte>, p: int, q: int, fuel: nat)
    requires arr.ArrayType? && i < |xs| && fuel >= 1
    requires forall j :: 0 <= j < |xs| ==> Conforms(arr.items, xs[j])
    requires n == |xs| - i && acc == pre + CanonicalItems(arr.items, xs)[..i]
    requires WriteItems(arr, xs, i).Ok? && At(buf, p, WriteItems(arr, xs, i).value)
    requires q == p + |WriteItems(arr, xs, i).value|
    ensures ReadItems(arr, buf, p, n, acc, fuel) == Ok(Decoded(pre + CanonicalItems(arr.items, xs), q))
    decreases arr, 1, n, 0
  {
    var all := CanonicalItems(arr.items, xs);
    var b := Write(arr.items, xs[i]).value;
    var rest := WriteItems(arr, xs, i + 1).value;
    var p1 := p + |b|;
    WriteItemsStep(arr, xs, i);
    AtParts(buf, p, b, rest, p1);
    ReadWriteAt(arr.items, xs[i], buf, p, p1, fuel);
    ReadItemsStep(arr, buf, p, n, acc, fuel, Decoded(all[i], p1));
    PrefixStep(pre, all, acc, i);
    ReadItemsAt(arr, xs, i + 1, n - 1, pre, acc + [all[i]], buf, p1, q, fuel);
  }

  /** Extending the items read so far by the next canonical item. */
  lemma PrefixStep(pre: seq<Value>, all: seq<Value>, acc: seq<Value>, i: nat)
    requires i < |all| && acc == pre + all[..i]
    ensures acc + [all[i]] == pre + all[..i + 1]
  {
    assert all[..i + 1] == all[..i] + [all[i]];
  }

  /** The encoding of items from `i` on is item `i`'s, then the rest. */
  lemma WriteItemsStep(arr: Type, xs: seq<Value>, i: nat)
    requires arr.ArrayType? && i < |xs| && WriteItems(arr, xs, i).Ok?
    ensures Write(arr.items, xs[i]).Ok? && WriteItems(arr, xs, i + 1).Ok?
    ensures WriteItems(arr, xs, i).value == Write(arr.items, xs[i]).value + WriteItems(arr, xs, i + 1).value
  {
  }

  /** One round of the item loop. */
  lemma ReadItemsStep(arr: Type, buf: seq<byte>, p: int, n: nat, acc: seq<Value>, fuel: nat,
                      d: Decoded<Value>)
    requires arr.ArrayType? && n > 0 && Read(arr.items, buf, p, fuel) == Ok(d)
    ensures ReadItems(arr, buf, p, n, acc, fuel) == ReadItems(arr, buf, d.pos, n - 1, acc + [d.value], fuel)
  {
  }

  /** The record fields, from field `i` on, read back in declared order,
      ending at `q`. */
  lemma {:induction false} ReadFieldsAt(rec: Type, v: Value, i: nat, buf: seq<byte>, p: int, q: int,
                                        acc: map<string, Value>, fuel: nat)
    requires rec.RecordType? && i <= |rec.fields| && Conforms(rec, v) && fuel >= 1
    requires WriteFields(rec, v, i).Ok? && At(buf, p, WriteFields(rec, v, i).value)
    requires q == p + |WriteFields(rec, v, i).value|
    ensures ReadFields(rec, buf, p, i, acc, fuel) == Ok(Decoded(CanonicalFields(rec, v.props, i, acc), q))
    decreases rec, 1, |rec.fields| - i
  {
    if i < |rec.fields| {
      var f := rec.fields[i];
      assert f in rec.fields;
      var x := v.props[f.name];
      var b := Write(f.ty, x).value;
      var rest := WriteFields(rec, v, i + 1).value;
      var p1 := p + |b|;
      WriteFieldsStep(rec, v, i);
      AtParts(buf, p, b, rest, p1);
      ReadWriteAt(f.ty, x, buf, p, p1, fuel);
      var c := Canonical(f.ty, x);
      ReadFieldsAt(rec, v, i + 1, buf, p1, q, acc[f.name := c], fuel);
      ReadFieldsCons(rec, v, i, buf, p, p1, q, acc, fuel, c);
    } else {
      ReadFieldsEnd(rec, v, buf, p, acc, fuel);
    }
  }

  /** Field `i` read as `c` from `p` to `p1`, followed by the rest of the
      fields from `p1` to `q`. */
  lemma ReadFieldsCons(rec: Type, v: Value, i: nat, buf: seq<byte>, p: int, p1: int, q: int,
                       acc: map<string, Value>, fuel: nat, c: Value)
    requires rec.RecordType? && i < |rec.fields| && v.VObject? && rec.fields[i].name in v.props
    requires c == Canonical(rec.fields[i].ty, v.props[rec.fields[i].name])
    requires Read(rec.fields[i].ty, buf, p, fuel) == Ok(Decoded(c, p1))
    requires ReadFields(rec, buf, p1, i + 1, acc[rec.fields[i].name := c], fuel)
          == Ok(Decoded(CanonicalFields(rec, v.props, i + 1, acc[rec.fields[i].name := c]), q))
    ensures ReadFields(rec, buf, p, i, acc, fuel) == Ok(Decoded(CanonicalFields(rec, v.props, i, acc), q))
  {
    ReadFieldsStep(rec, buf, p, i, acc, fuel, Decoded(c, p1));
    CanonicalFieldsStep(rec, v.props, i, acc);
  }

  /** Past the last field nothing is written and nothing is read. */
  lemma ReadFieldsEnd(rec: Type, v: Value, buf: seq<byte>, p: int, acc: map<string, Value>, fuel: nat)
    requires rec.RecordType? && v.VObject?
    ensures WriteFields(rec, v, |rec.fields|) == Ok([])
    ensures ReadFields(rec, buf, p, |rec.fields|, acc, fuel) == Ok(Decoded(acc, p))
    ensures CanonicalFields(rec, v.props, |rec.fields|, acc) == acc
  {
  }

  /** When the record writer succeeds from field `i` on, each of those
      fields' property reads succeeds and gives a value its type can write. */
  lemma WrittenFieldWritable(rec: Type, v: Value, i: nat, j: nat)
    requires rec.RecordType? && i <= j < |rec.fields| && WriteFields(rec, v, i).Ok?
    ensures FieldWritable(rec, v, j)
  {
    var k := i;
    while k < j
      invariant i <= k <= j && WriteFields(rec, v, k).Ok?
      decreases j - k
    {
      WrittenRestWritten(rec, v, k);
      k := k + 1;
    }
    WriteFieldsOkStep(rec, v, j);
  }
  lemma {:induction false} WritableFieldsWritten(rec: Type, v: Value, i: nat)
    requires rec.RecordType? && i <= |rec.fields|
    requires forall j :: i <= j < |rec.fields| ==> FieldWritable(rec, v, j)
    ensures WriteFields(rec, v, i).Ok?
    decreases |rec.fields| - i
  {
    if i == |rec.fields| {
      assert WriteFields(rec, v, i) == Ok([]);
    } else {
      assert FieldWritable(rec, v, i);
      WritableFieldsWritten(rec, v, i + 1);
      WriteFieldsOkStep(rec, v, i);
    }
  }

  /** The record writer succeeds from field `i` on exactly when field `i`
      is writable and the writer succeeds from field `i + 1` on. */
  lemma WrittenRestWritten(rec: Type, v: Value, i: nat)
    requires rec.RecordType? && i < |rec.fields| && WriteFields(rec, v, i).Ok?
    ensures WriteFields(rec, v, i + 1).Ok?
  {
    WriteFieldsOkStep(rec, v, i);
  }
  lemma WriteFieldsOkStep(rec: Type, v: Value, i: nat)
    requires rec.RecordType? && i < |rec.fields|
    ensures WriteFields(rec, v, i).Ok? <==> FieldWritable(rec, v, i) && WriteFields(rec, v, i + 1).Ok?
  {
  }

  /** The encoding of fields from `i` on is field `i`'s, then the rest. */
  lemma WriteFieldsStep(rec: Type, v: Value, i: nat)
    requires rec.RecordType? && i < |rec.fields| && WriteFields(rec, v, i).Ok?
    ensures Prop(v, rec.fields[i].name).Ok?
    ensures Write(rec.fields[i].ty, Prop(v, rec.fields[i].name).value).Ok? && WriteFields(rec, v, i + 1).Ok?
    ensures WriteFields(rec, v, i).value
         == Write(rec.fields[i].ty, Prop(v, rec.fields[i].name).value).value + WriteFields(rec, v, i + 1).value
    ensures Conforms(rec, v) ==>
              rec.fields[i].name in v.props && Prop(v, rec.fields[i].name) == Ok(v.props[rec.fields[i].name])
  {
  }


  /** One round of the record reader. */
  lemma ReadFieldsStep(rec: Type, buf: seq<byte>, p: int, i: nat, acc: map<string, Value>, fuel: nat,
                       d: Decoded<Value>)
    requires rec.RecordType? && i < |rec.fields| && Read(rec.fields[i].ty, buf, p, fuel) == Ok(d)
    ensures ReadFields(rec, buf, p, i, acc, fuel)
         == ReadFields(rec, buf, d.pos, i + 1, acc[rec.fields[i].name := d.value], fuel)
  {
  }

  /** One round of CanonicalFields. */
  lemma CanonicalFieldsStep(rec: Type, m: map<string, Value>, i: nat, acc: map<string, Value>)
    requires rec.RecordType? && i < |rec.fields| && rec.fields[i].name in m
    ensures CanonicalFields(rec, m, i, acc)
         == CanonicalFields(rec, m, i + 1,
                            acc[rec.fields[i].name := Canonical(rec.fields[i].ty, m[rec.fields[i].name])])
  {
  }
}

=== FILE: utils.dfy ===
/** The cursor layer of src/utils.js: the implied-namespace rule, the `Tap`
    cursor, its zigzag varint codec and its length-prefixed strings.

    Reads are pure functions from a buffer and a position to a `Decoded`
    value and the position after it. The source never bounds-checks a read:
    `buf[i]` outside the buffer is `undefined`, and `undefined & mask` is 0,
    so every read here sees bytes outside the buffer as 0 and still advances
    the position. Writes are pure functions to the bytes they emit. */
module Utils {
  import opened Base

  const TWO_27: int := 0x800_0000
  const TWO_28: int := 0x1000_0000
  const TWO_30: int := 0x4000_0000
  const TWO_31: int := 0x8000_0000
  const TWO_32: int := 0x1_0000_0000

  /** A value read from a buffer and the position just after it. */
  datatype Decoded<+T> = Decoded(value: T, pos: int)

  /** ECMAScript ToInt32 on an integral number: the operand conversion of
      every bitwise operator (`|`, `<<`, `>>`, `~`). */
  function ToInt32(x: int): (r: int)
    ensures -TWO_31 <= r < TWO_31
    ensures (x - r) % TWO_32 == 0
  {
    (x + TWO_31) % TWO_32 - TWO_31
  }

  /* ---------------------------------------------------------------- names */

  /** The characters the regular-expression atom `.` does not match. */
  predicate IsLineTerminator(c: char) {
    c == '\n' || c == '\r' || c == '\U{2028}' || c == '\U{2029}'
  }

  predicate NoLineTerminator(s: string) {
    forall i :: 0 <= i < |s| ==> !IsLineTerminator(s[i])
  }

  /** The dot at index `i` splits `name` the way `/^(.*)\.[^.]+$/` does:
      a non-empty, dot-free tail after it, and a head before it that `(.*)`
      can match. */
  predicate NamespaceSplit(name: string, i: int) {
    && 0 <= i < |name| - 1
    && name[i] == '.'
    && (forall j :: i < j < |name| ==> name[j] != '.')
    && NoLineTerminator(name[..i])
  }

  /** Index of the last '.' in `s`, if any. */
  function LastDot(s: string): (r: Option<nat>)
    ensures r.Some? ==> r.value < |s| && s[r.value] == '.'
    ensures r.Some? ==> forall j :: r.value < j < |s| ==> s[j] != '.'
    ensures r.None? ==> forall j :: 0 <= j < |s| ==> s[j] != '.'
  {
    if |s| == 0 then None
    else if s[|s| - 1] == '.' then Some(|s| - 1)
    else LastDot(s[..|s| - 1])
  }

  /** impliedNamespace: the text before the last dot of `name`, when the
      pattern `/^(.*)\.[^.]+$/` matches it; `undefined` (None) otherwise. */
  function ImpliedNamespace(name: string): (r: Option<string>)
    ensures r.Some? <==> exists i :: NamespaceSplit(name, i)
    ensures forall i :: NamespaceSplit(name, i) ==> r == Some(name[..i])
  {
    match LastDot(name)
    case None => None
    case Some(i) =>
      if i < |name| - 1 && NoLineTerminator(name[..i]) then
        assert NamespaceSplit(name, i);
        Some(name[..i])
      else None
  }

  /* ------------------------------------------------------------------ tap */

  /** A cursor over a byte buffer. */
  datatype Tap = Tap(buf: seq<byte>, pos: int) {

    /** isValid: the position has not run past the end of the buffer.
        Then every position before it lies inside the buffer; otherwise
        the position just before it lies past the end, where a byte reads
        as zero. It says nothing about which bytes were read on the way:
        a negative string length moves the cursor back, and an overlong
        one skips bytes. */
    function IsValid(): (r: bool)
      ensures r ==> forall j :: 0 <= j < pos ==> j < |buf| && ByteAt(buf, j) == buf[j]
      ensures !r ==> pos - 1 >= |buf| && ByteAt(buf, pos - 1) == 0
    {
      pos <= |buf|
    }
  }

  /** The Tap constructor: `pos | 0` (an absent position is 0, any other is
      truncated to 32 bits), rejected when negative. */
  function NewTap(buf: seq<byte>, pos: Option<int>): (r: Result<Tap>)
    ensures r.Ok? ==> r.value.buf == buf && 0 <= r.value.pos < TWO_31
    ensures r.Err? ==> r.error == NegativeOffset
    ensures pos.None? ==> r == Ok(Tap(buf, 0))
    ensures pos.Some? && 0 <= pos.value < TWO_31 ==> r == Ok(Tap(buf, pos.value))
    ensures pos.Some? && -TWO_31 <= pos.value < 0 ==> r == Err(NegativeOffset)
  {
    var p := ToInt32(match pos case None => 0 case Some(x) => x);
    if p < 0 then Err(NegativeOffset) else Ok(Tap(buf, p))
  }

  /** `buf[i]` as the bitwise masks of the source see it. */
  function ByteAt(buf: seq<byte>, i: int): byte {
    if 0 <= i < |buf| then buf[i] else 0
  }

  /* --------------------------------------------------------------- varint */

  function Pow128(g: nat): (r: nat)
    ensures r >= 1
  {
    if g == 0 then 1 else 128 * Pow128(g - 1)
  }

  /** The integer a little-endian run of 7-bit groups denotes. */
  function VarintValue(bs: seq<byte>): nat {
    if bs == [] then 0 else bs[0] % 128 + 128 * VarintValue(bs[1..])
  }

  /** A well-formed varint: the continuation bit 0x80 on every byte but the last. */
  predicate IsVarint(bs: seq<byte>) {
    && |bs| >= 1
    && bs[|bs| - 1] < 128
    && forall i :: 0 <= i < |bs| - 1 ==> bs[i] >= 128
  }

  /** The loop of writeLong once `m` is known: 7 bits per byte, low group
      first, the continuation bit on all but the last byte. */
  function VarintBytes(m: nat): (r: seq<byte>)
    ensures IsVarint(r)
    ensures VarintValue(r) == m
  {
    if m < 128 then [m] else [m % 128 + 128] + VarintBytes(m / 128)
  }

  /** The unsigned value writeLong computes for `n`:
      `n >= 0 ? n << 1 : (~n << 1) | 1`, in 32-bit arithmetic. */
  function ZigZag32(n: int): (m: int)
    ensures -TWO_31 <= m < TWO_31
    ensures -TWO_30 <= n < TWO_30 ==> m >= 0
    ensures 0 <= n < TWO_30 ==> m == 2 * n
    ensures -TWO_30 <= n < 0 ==> m == -2 * n - 1
  {
    var a := ToInt32(n);
    if n >= 0 then ToInt32(2 * a)
    else
      var shifted := ToInt32(2 * (-a - 1));
      assert shifted % 2 == 0;
      shifted + 1
  }

  /** The final step of readLong, `(n >> 1) ^ -(n & 1)`: the signed value
      whose zigzag image is `m`. */
  function UnZigZag(m: nat): (n: int)
    ensures m == (if n >= 0 then 2 * n else -2 * n - 1)
  {
    if m % 2 == 0 then m / 2 else -(m / 2) - 1
  }

  /** writeLong: the bytes written for `n`. When the 32-bit zigzag value is
      negative the arithmetic shift `m >>= 7` never reaches 0 and the source
      loops forever. */
  function WriteLong(n: int): (r: Result<seq<byte>>)
    ensures r.Ok? <==> ZigZag32(n) >= 0
    ensures r.Err? ==> r.error == NonTermination
    ensures r.Ok? ==> IsVarint(r.value) && VarintValue(r.value) == ZigZag32(n)
    ensures -TWO_30 <= n < TWO_30 ==> r.Ok?
  {
    var m := ZigZag32(n);
    if m < 0 then Err(NonTermination) else Ok(VarintBytes(m))
  }

  /** The do-while loop of readLong from group `g` on, with `acc` holding the
      groups read so far: `n |= (b & 0x7f) << k` is an addition here because
      `acc < 2^k`. The loop stops at a byte without the continuation bit or
      after the fourth group (`k < 28`). */
  function ReadGroups(buf: seq<byte>, pos: int, g: nat, acc: nat): (r: Decoded<nat>)
    requires g < 4 && acc < Pow128(g)
    ensures pos < r.pos <= pos + 4 - g
    ensures r.value < Pow128(4)
    decreases 4 - g
  {
    var b := ByteAt(buf, pos);
    var acc' := acc + (b % 128) * Pow128(g);
    GroupBound(acc, b % 128, Pow128(g));
    Pow128Monotone(g + 1, 4);
    if b >= 128 && g + 1 < 4 then ReadGroups(buf, pos + 1, g + 1, acc')
    else Decoded(acc', pos + 1)
  }

  /** Appending a 7-bit group above `acc < p` stays below `128 * p`. */
  lemma GroupBound(acc: nat, d: nat, p: nat)
    requires acc < p && d < 128
    ensures acc + d * p < 128 * p
  {
    assert d * p <= 127 * p;
  }

  lemma {:induction false} Pow128Monotone(g: nat, h: nat)
    requires g <= h
    ensures Pow128(g) <= Pow128(h)
    decreases h - g
  {
    if g < h {
      Pow128Monotone(g, h - 1);
    }
  }

  /** readLong: a zigzag varint of at most four bytes. */
  function ReadLong(buf: seq<byte>, pos: int): (r: Decoded<int>)
    ensures pos + 1 <= r.pos <= pos + 4
    ensures -TWO_27 <= r.value < TWO_27
  {
    var d := ReadGroups(buf, pos, 0, 0);
    Decoded(UnZigZag(d.value), d.pos)
  }

  /* -------------------------------------------------------------- strings */

  predicate IsAscii(s: string) {
    forall i :: 0 <= i < |s| ==> s[i] as int < 128
  }

  /** The bytes of an ASCII string: its character codes. */
  function AsciiBytes(s: string): (r: seq<byte>)
    requires IsAscii(s)
    ensures |r| == |s|
    ensures forall i {:trigger r[i]} :: 0 <= i < |s| ==> r[i] == s[i] as int
  {
    if s == [] then [] else [s[0] as int] + AsciiBytes(s[1..])
  }

  /** Number of bytes of the UTF-8 encoding of a character. */
  function Utf8Width(c: char): int {
    if c as int < 0x80 then 1
    else if c as int < 0x800 then 2
    else if c as int < 0x10000 then 3
    else 4
  }

  /** `new TextEncoder().encode(s).byteLength`. */
  function Utf8Length(s: string): (r: nat)
    ensures r >= |s|
    ensures IsAscii(s) ==> r == |s|
  {
    if s == [] then 0 else Utf8Width(s[0]) + Utf8Length(s[1..])
  }

  /** `s.length`: the number of UTF-16 code units, two for a character
      outside the Basic Multilingual Plane. */
  function Utf16Length(s: string): (r: nat)
    ensures |s| <= r <= 2 * |s|
  {
    if s == [] then 0 else (if s[0] as int < 0x10000 then 1 else 2) + Utf16Length(s[1..])
  }

  /** The UTF-16 code units of `s`, which `charCodeAt` indexes. */
  function Utf16Units(s: string): (r: seq<int>)
    ensures |r| == Utf16Length(s)
    ensures IsAscii(s) ==> forall i {:trigger r[i]} :: 0 <= i < |s| ==> r[i] == s[i] as int
  {
    if s == [] then []
    else
      var c := s[0] as int;
      var head := if c < 0x10000 then [c]
                  else [0xD800 + (c - 0x10000) / 0x400, 0xDC00 + (c - 0x10000) % 0x400];
      head + Utf16Units(s[1..])
  }

  /** The body writeString stores: `buf[pos++] = s.charCodeAt(i)` for
      `i < len`. A Uint8Array keeps the low 8 bits of a code unit, and
      `charCodeAt` past the last code unit is NaN, stored as 0. */
  function CodeUnitBytes(s: string, len: nat): (r: seq<byte>)
    ensures |r| == len
  {
    var units := Utf16Units(s);
    seq(len, i requires 0 <= i < len => if i < |units| then units[i] % 256 else 0)
  }

  /** On ASCII text the stored code units are exactly the character codes. */
  lemma AsciiCodeUnits(s: string)
    requires IsAscii(s)
    ensures CodeUnitBytes(s, Utf8Length(s)) == AsciiBytes(s)
  {
    var body := CodeUnitBytes(s, Utf8Length(s));
    var units := Utf16Units(s);
    forall i | 0 <= i < |s|
      ensures body[i] == AsciiBytes(s)[i]
    {
      assert units[i] == s[i] as int < 128;
    }
  }

  /** writeString: the UTF-8 byte length as a varint, then that many bytes
      taken from the UTF-16 code units. */
  function WriteString(s: string): (r: Result<seq<byte>>)
    ensures Utf8Length(s) < TWO_30 ==> r.Ok?
    ensures r.Ok? ==> |r.value| > Utf8Length(s)
    ensures r.Ok? ==> var header := r.value[..|r.value| - Utf8Length(s)];
                      IsVarint(header) && VarintValue(header) == ZigZag32(Utf8Length(s))
    ensures IsAscii(s) && |s| < TWO_30 ==> r == Ok(VarintBytes(2 * |s|) + AsciiBytes(s))
  {
    var len := Utf8Length(s);
    var header :- WriteLong(len);
    var body := CodeUnitBytes(s, len);
    assert (header + body)[..|header|] == header;
    if IsAscii(s) then
      AsciiCodeUnits(s);
      Ok(header + body)
    else Ok(header + body)
  }

  /** `new Uint8Array(buf).slice(start, end)`: negative bounds count from
      the end, every bound is clamped to the buffer, and an empty range
      gives no bytes. */
  function Slice(buf: seq<byte>, start: int, end: int): (r: seq<byte>)
    ensures |r| <= |buf|
    ensures 0 <= start <= end <= |buf| ==> r == buf[start..end]
    ensures 0 <= end <= start ==> r == []
    ensures 0 <= start <= |buf| <= end ==> r == buf[start..]
  {
    var first := if start < 0 then Max(|buf| + start, 0) else Min(start, |buf|);
    var last := if end < 0 then Max(|buf| + end, 0) else Min(end, |buf|);
    if first < last then buf[first..last] else []
  }

  function Max(a: int, b: int): int { if a < b then b else a }
  function Min(a: int, b: int): int { if a < b then a else b }

  /** `new TextDecoder().decode(bytes)` on ASCII input. Each byte of 0x80
      and above becomes U+FFFD here (see the README for this simplification). */
  function DecodeText(bytes: seq<byte>): (r: string)
    ensures |r| == |bytes|
  {
    seq(|bytes|, i requires 0 <= i < |bytes| => if bytes[i] < 128 then bytes[i] as char else '\U{FFFD}')
  }

  /** readString: a varint length, then that many bytes decoded as text. The
      position moves by the decoded length even past the end of the buffer
      (or backwards, for a negative length); only isValid reveals an overrun. */
  function ReadString(buf: seq<byte>, pos: int): (r: Decoded<string>)
    ensures r.pos == ReadLong(buf, pos).pos + ReadLong(buf, pos).value
    ensures |r.value| <= |buf|
    ensures var start := ReadLong(buf, pos).pos;
            0 <= start <= r.pos <= |buf| ==> |r.value| == r.pos - start
  {
    var len := ReadLong(buf, pos);
    var bytes := Slice(buf, len.pos, len.pos + len.value);
    Decoded(DecodeText(bytes), len.pos + len.value)
  }
}

=== FILE: utils_proofs.dfy ===
/** Properties of the cursor layer (Utils): the varint and string round
    trips, their byte layouts, and the behaviour at the edges the source
    leaves unchecked. */
module UtilsProofs {
  import opened Base
  import opened Utils

  /* ---------------------------------------------------------------- names */

  /** The examples of the implied-namespace rule: a short name and a name
      ending in a dot have none, and `.` in the pattern does not cross a
      line break. */
  lemma ImpliedNamespaceExamples()
    ensures ImpliedNamespace("C") == None
    ensures ImpliedNamespace("a.b.") == None
    ensures ImpliedNamespace("a.b.C") == Some("a.b")
    ensures ImpliedNamespace("a\nb.C") == None
  {
    assert "a.b.C"[..4] == "a.b.";
    assert LastDot("a.b.C") == Some(3);
    assert "a.b.C"[..3] == "a.b";
    assert "a.b."[..3] == "a.b";
    assert LastDot("a.b.") == Some(3);
    assert "a\nb.C"[..4] == "a\nb.";
    assert LastDot("a\nb.C") == Some(3);
    assert "a\nb.C"[..3] == "a\nb";
    assert IsLineTerminator("a\nb"[1]);
  }

  /* ------------------------------------------------------------------ tap */

  /** The constructor keeps only the low 32 bits of the position: 2^32 is
      position 0, and 2^31 reads as negative and is rejected. */
  lemma NewTapTruncatesPosition(buf: seq<byte>)
    ensures NewTap(buf, Some(TWO_32)) == Ok(Tap(buf, 0))
    ensures NewTap(buf, Some(TWO_31)) == Err(NegativeOffset)
  {
  }

  /* --------------------------------------------------------------- varint */

  /** The two one-byte encodings the wire format fixes, and the first
      two-byte one. */
  lemma WriteLongExamples()
    ensures WriteLong(0) == Ok([0x00])
    ensures WriteLong(-1) == Ok([0x01])
    ensures WriteLong(1) == Ok([0x02])
    ensures WriteLong(2) == Ok([0x04])
    ensures WriteLong(64) == Ok([0x80, 0x01])
  {
    assert ZigZag32(64) == 128;
    assert VarintBytes(128) == [0x80] + VarintBytes(1) == [0x80, 0x01];
  }

  /** Zigzag decoding undoes zigzag encoding on the whole 31-bit domain. */
  lemma ZigZagRoundTrip(n: int)
    requires -TWO_30 <= n < TWO_30
    ensures UnZigZag(ZigZag32(n)) == n
  {
  }

  /** The varints readLong can take in: a varint has at most four bytes
      exactly when its value is below 2^28. */
  lemma VarintFitsFourGroups(m: nat)
    ensures |VarintBytes(m)| <= 4 <==> m < TWO_28
  {
    var m1, m2, m3 := m / 128, m / 128 / 128, m / 128 / 128 / 128;
    assert |VarintBytes(m)| <= 4 <==> m < 128 || |VarintBytes(m1)| <= 3 by {
      VarintBytesLength(m);
    }
    assert |VarintBytes(m1)| <= 3 <==> m1 < 128 || |VarintBytes(m2)| <= 2 by {
      VarintBytesLength(m1);
    }
    assert |VarintBytes(m2)| <= 2 <==> m2 < 128 || |VarintBytes(m3)| <= 1 by {
      VarintBytesLength(m2);
    }
    assert |VarintBytes(m3)| <= 1 <==> m3 < 128 by {
      VarintBytesLength(m3);
    }
    assert m < 128 || m1 < 128 || m2 < 128 || m3 < 128 <==> m < TWO_28;
  }

  lemma VarintBytesLength(x: nat)
    ensures |VarintBytes(x)| == if x < 128 then 1 else 1 + |VarintBytes(x / 128)|
  {
  }

  lemma DivBound(m: nat, p: nat)
    ensures m < 128 * p <==> m / 128 < p
  {
  }

  /** `bs` sits in `buf` at position `p`, stated byte by byte. */
  predicate At(buf: seq<byte>, p: int, bs: seq<byte>)
    decreases |bs|
  {
    if bs == [] then 0 <= p <= |buf| else 0 <= p < |buf| && buf[p] == bs[0] && At(buf, p + 1, bs[1..])
  }

  /** At is the slice equation. */
  lemma {:induction false} AtSlice(buf: seq<byte>, p: int, bs: seq<byte>)
    ensures At(buf, p, bs) <==> 0 <= p && p + |bs| <= |buf| && buf[p..p + |bs|] == bs
    decreases |bs|
  {
    if bs != [] {
      AtSlice(buf, p + 1, bs[1..]);
      if 0 <= p && p + |bs| <= |buf| {
        assert buf[p..p + |bs|] == [buf[p]] + buf[p + 1..p + |bs|];
      }
    }
  }

  lemma AtFirst(buf: seq<byte>, p: int, b: byte, rest: seq<byte>)
    requires At(buf, p, [b] + rest)
    ensures ByteAt(buf, p) == b && At(buf, p + 1, rest)
  {
    assert ([b] + rest)[1..] == rest;
  }

  lemma AtMiddle(pre: seq<byte>, bs: seq<byte>, suf: seq<byte>)
    ensures At(pre + bs + suf, |pre|, bs)
  {
    AtSlice(pre + bs + suf, |pre|, bs);
    assert (pre + bs + suf)[|pre|..|pre| + |bs|] == bs;
  }

  /** Two pieces sit side by side exactly when their concatenation does. */
  lemma AtSplit(buf: seq<byte>, p: int, a: seq<byte>, b: seq<byte>)
    ensures At(buf, p, a + b) <==> At(buf, p, a) && At(buf, p + |a|, b)
  {
    AtSlice(buf, p, a + b);
    AtSlice(buf, p, a);
    AtSlice(buf, p + |a|, b);
    if At(buf, p, a) && At(buf, p + |a|, b) {
      assert buf[p..p + |a + b|] == buf[p..p + |a|] + buf[p + |a|..p + |a| + |b|];
    }
    if At(buf, p, a + b) {
      assert buf[p..p + |a|] == buf[p..p + |a + b|][..|a|];
      assert buf[p + |a|..p + |a| + |b|] == buf[p..p + |a + b|][|a|..];
    }
  }

  /** The two pieces of a concatenation that sits at `p`; the second one
      starts at `p1`. */
  lemma AtParts(buf: seq<byte>, p: int, a: seq<byte>, b: seq<byte>, p1: int)
    requires At(buf, p, a + b) && p1 == p + |a|
    ensures At(buf, p, a) && At(buf, p1, b)
  {
    AtSplit(buf, p, a, b);
  }

  /** The three pieces of a concatenation that sits at `p`; the second one
      starts at `p1` and the third at `p2`. */
  lemma AtParts3(buf: seq<byte>, p: int, a: seq<byte>, b: seq<byte>, c: seq<byte>, p1: int, p2: int)
    requires At(buf, p, a + b + c) && p1 == p + |a| && p2 == p1 + |b|
    ensures At(buf, p, a) && At(buf, p1, b) && At(buf, p2, c)
  {
    AtSplit(buf, p, a + b, c);
    AtSplit(buf, p, a, b);
  }

  /** Reading groups from `g` on over the varint of `x` adds `x`'s groups
      above `acc` and stops right after the varint. */
  lemma {:induction false} ReadGroupsVarint(buf: seq<byte>, p: int, g: nat, acc: nat, x: nat, q: int)
    requires g < 4 && acc < Pow128(g) && x < Pow128(4 - g)
    requires At(buf, p, VarintBytes(x)) && q == p + |VarintBytes(x)|
    ensures ReadGroups(buf, p, g, acc) == Decoded(acc + x * Pow128(g), q)
    decreases x, 1
  {
    if x >= 128 {
      ReadGroupsVarintStep(buf, p, g, acc, x, q);
    } else {
      AtFirst(buf, p, x, []);
    }
  }

  /** The step of ReadGroupsVarint for a varint of more than one byte. */
  lemma {:induction false} ReadGroupsVarintStep(buf: seq<byte>, p: int, g: nat, acc: nat, x: nat, q: int)
    requires g < 4 && acc < Pow128(g) && x < Pow128(4 - g) && x >= 128
    requires At(buf, p, VarintBytes(x)) && q == p + |VarintBytes(x)|
    ensures ReadGroups(buf, p, g, acc) == Decoded(acc + x * Pow128(g), q)
    decreases x, 0
  {
    var rest := VarintBytes(x / 128);
    AtFirst(buf, p, x % 128 + 128, rest);
    GroupFacts(acc, x, g);
    var pg := Pow128(g);
    var acc' := acc + (x % 128) * pg;
    assert ByteAt(buf, p) % 128 == x % 128;
    ReadGroupsContinue(buf, p, g, acc);
    assert ReadGroups(buf, p, g, acc) == ReadGroups(buf, p + 1, g + 1, acc');
    VarintBytesLength(x);
    ReadGroupsVarint(buf, p + 1, g + 1, acc', x / 128, q);
    assert ReadGroups(buf, p + 1, g + 1, acc') == Decoded(acc' + (x / 128) * (128 * pg), q);
    GroupSplit(acc, x, pg);
  }

  /** One iteration of the readLong loop on a byte with the continuation bit. */
  lemma ReadGroupsContinue(buf: seq<byte>, p: int, g: nat, acc: nat)
    requires g + 1 < 4 && acc < Pow128(g) && ByteAt(buf, p) >= 128
    ensures acc + (ByteAt(buf, p) % 128) * Pow128(g) < Pow128(g + 1)
    ensures ReadGroups(buf, p, g, acc)
         == ReadGroups(buf, p + 1, g + 1, acc + (ByteAt(buf, p) % 128) * Pow128(g))
  {
    GroupBound(acc, ByteAt(buf, p) % 128, Pow128(g));
  }

  /** The bounds one more group keeps when `x` needs more than one group. */
  lemma GroupFacts(acc: nat, x: nat, g: nat)
    requires g < 4 && acc < Pow128(g) && x < Pow128(4 - g) && x >= 128
    ensures g + 1 < 4
    ensures (x % 128 + 128) % 128 == x % 128
    ensures Pow128(g + 1) == 128 * Pow128(g)
    ensures x / 128 < Pow128(4 - (g + 1))
    ensures acc + (x % 128) * Pow128(g) < Pow128(g + 1)
  {
    assert Pow128(1) == 128;
    assert Pow128(4 - g) == 128 * Pow128(4 - (g + 1));
    DivBound(x, Pow128(4 - (g + 1)));
    GroupBound(acc, x % 128, Pow128(g));
  }

  /** Splitting `x` into its low group and the rest, weighted by `pg`. */
  lemma GroupSplit(acc: nat, x: nat, pg: nat)
    ensures acc + (x % 128) * pg + (x / 128) * (128 * pg) == acc + x * pg
  {
    assert (x / 128) * (128 * pg) == (128 * (x / 128)) * pg;
    assert (x % 128) * pg + (128 * (x / 128)) * pg == (x % 128 + 128 * (x / 128)) * pg;
  }

  /** readLong inverts the varint layout for every value below 2^28,
      wherever it sits in the buffer. */
  lemma ReadLongAt(buf: seq<byte>, p: int, m: nat)
    requires m < TWO_28 && At(buf, p, VarintBytes(m))
    ensures ReadLong(buf, p) == Decoded(UnZigZag(m), p + |VarintBytes(m)|)
  {
    assert Pow128(4) == TWO_28 by {
      assert Pow128(2) == 128 * 128;
    }
    ReadGroupsVarint(buf, p, 0, 0, m, p + |VarintBytes(m)|);
    assert m * Pow128(0) == m;
  }

  /** A non-negative count `k`, as writeLong encodes it, reads back as `k`
      and ends at `q`. */
  lemma ReadCountAt(buf: seq<byte>, p: int, k: nat, q: int)
    requires 2 * k < TWO_28 && At(buf, p, VarintBytes(2 * k)) && q == p + |VarintBytes(2 * k)|
    ensures ReadLong(buf, p) == Decoded(k, q)
  {
    ReadLongAt(buf, p, 2 * k);
    UnZigZagEven(k);
  }

  /** ReadLongAt with the surroundings spelled out. */
  lemma ReadLongVarint(pre: seq<byte>, m: nat, suf: seq<byte>)
    requires m < TWO_28
    ensures ReadLong(pre + VarintBytes(m) + suf, |pre|)
         == Decoded(UnZigZag(m), |pre| + |VarintBytes(m)|)
  {
    AtMiddle(pre, VarintBytes(m), suf);
    ReadLongAt(pre + VarintBytes(m) + suf, |pre|, m);
  }

  /** On any bytes, the readLong loop from group `g` on passes only bytes
      with the continuation bit and stops after the first byte without it,
      or once the fourth group is in. */
  lemma {:induction false} ReadGroupsStops(buf: seq<byte>, pos: int, g: nat, acc: nat)
    requires g < 4 && acc < Pow128(g)
    ensures forall j :: pos <= j < ReadGroups(buf, pos, g, acc).pos - 1 ==> ByteAt(buf, j) >= 128
    ensures ByteAt(buf, ReadGroups(buf, pos, g, acc).pos - 1) < 128
         || ReadGroups(buf, pos, g, acc).pos == pos + 4 - g
    decreases 4 - g
  {
    var b := ByteAt(buf, pos);
    if b >= 128 && g + 1 < 4 {
      ReadGroupsContinue(buf, pos, g, acc);
      ReadGroupsStops(buf, pos + 1, g + 1, acc + (b % 128) * Pow128(g));
    }
  }

  /** readLong reads bytes up to and including the first one without the
      continuation bit, but never more than four. */
  lemma ReadLongStops(buf: seq<byte>, pos: int)
    ensures forall j :: pos <= j < ReadLong(buf, pos).pos - 1 ==> ByteAt(buf, j) >= 128
    ensures ByteAt(buf, ReadLong(buf, pos).pos - 1) < 128 || ReadLong(buf, pos).pos == pos + 4
  {
    ReadGroupsStops(buf, pos, 0, 0);
  }

  /** A zero byte is the varint of 0. */
  lemma ReadLongZeroAt(buf: seq<byte>, p: int)
    requires At(buf, p, [0])
    ensures ReadLong(buf, p) == Decoded(0, p + 1)
  {
    assert ByteAt(buf, p) == buf[p..p + 1][0] == 0;
  }

  /** At the end of the buffer readLong sees a zero byte: it returns 0 and
      steps one past the end. */
  /** The bytes from `p` up to but excluding `q` as the reader sees them:
      a position outside the buffer reads as zero. */
  function Window(buf: seq<byte>, p: int, q: int): (r: seq<byte>)
    requires p <= q
    ensures |r| == q - p && forall i :: 0 <= i < |r| ==> r[i] == ByteAt(buf, p + i)
  {
    seq<byte>(q - p, i => ByteAt(buf, p + i))
  }
  lemma WindowValue(buf: seq<byte>, p: int, q: int)
    requires p < q
    ensures VarintValue(Window(buf, p, q)) == ByteAt(buf, p) % 128 + 128 * VarintValue(Window(buf, p + 1, q))
  {
    assert Window(buf, p, q)[1..] == Window(buf, p + 1, q);
  }
  lemma GroupShift(acc: nat, x: nat, pg: nat, v: nat)
    ensures acc + x * pg + (128 * pg) * v == acc + pg * (x + 128 * v)
  {
    assert (128 * pg) * v == pg * (128 * v);
    assert x * pg + pg * (128 * v) == pg * (x + 128 * v);
  }
  /** Reading groups accumulates the low seven bits of every byte it
      consumes, whatever those bytes are: the value is the varint value of
      the window read, shifted past the groups already read. */
  lemma {:induction false} ReadGroupsValue(buf: seq<byte>, pos: int, g: nat, acc: nat)
    requires g < 4 && acc < Pow128(g)
    ensures ReadGroups(buf, pos, g, acc).value
         == acc + Pow128(g) * VarintValue(Window(buf, pos, ReadGroups(buf, pos, g, acc).pos))
    decreases 4 - g, 1
  {
    if ByteAt(buf, pos) >= 128 && g + 1 < 4 {
      ReadGroupsValueStep(buf, pos, g, acc);
    } else {
      ReadGroupsValueLast(buf, pos, g, acc);
    }
  }
  lemma ReadGroupsValueLast(buf: seq<byte>, pos: int, g: nat, acc: nat)
    requires g < 4 && acc < Pow128(g) && !(ByteAt(buf, pos) >= 128 && g + 1 < 4)
    ensures ReadGroups(buf, pos, g, acc)
         == Decoded(acc + Pow128(g) * VarintValue(Window(buf, pos, pos + 1)), pos + 1)
  {
    var b := ByteAt(buf, pos);
    WindowValue(buf, pos, pos + 1);
    assert Window(buf, pos + 1, pos + 1) == [];
    assert VarintValue(Window(buf, pos, pos + 1)) == b % 128;
  }
  lemma {:induction false} ReadGroupsValueStep(buf: seq<byte>, pos: int, g: nat, acc: nat)
    requires g + 1 < 4 && acc < Pow128(g) && ByteAt(buf, pos) >= 128
    ensures ReadGroups(buf, pos, g, acc).value
         == acc + Pow128(g) * VarintValue(Window(buf, pos, ReadGroups(buf, pos, g, acc).pos))
    decreases 4 - g, 0
  {
    var b := ByteAt(buf, pos);
    var pg := Pow128(g);
    var acc' := acc + (b % 128) * pg;
    ReadGroupsContinue(buf, pos, g, acc);
    var r := ReadGroups(buf, pos + 1, g + 1, acc');
    assert ReadGroups(buf, pos, g, acc) == r;
    ReadGroupsValue(buf, pos + 1, g + 1, acc');
    var v := VarintValue(Window(buf, pos + 1, r.pos));
    assert r.value == acc' + Pow128(g + 1) * v;
    assert Pow128(g + 1) == 128 * pg;
    GroupShift(acc, b % 128, pg, v);
    assert r.value == acc + pg * (b % 128 + 128 * v);
    WindowValue(buf, pos, r.pos);
  }
  /** The value readLong returns, for any bytes at all: the zigzag decoding
      of the varint value of the bytes it consumed, padded or not; with
      ReadLongStops, which says where it stops, this determines ReadLong. */
  lemma ReadLongValue(buf: seq<byte>, p: int)
    ensures var q := ReadLong(buf, p).pos;
            ReadLong(buf, p) == Decoded(UnZigZag(VarintValue(Window(buf, p, q))), q)
  {
    var d := ReadGroups(buf, p, 0, 0);
    assert ReadLong(buf, p) == Decoded(UnZigZag(d.value), d.pos);
    ReadGroupsValue(buf, p, 0, 0);
    assert Pow128(0) == 1;
    assert d.value == VarintValue(Window(buf, p, d.pos));
  }
  /** A padded zero: the reader accepts `80 00` as 0, consuming both
      bytes. */
  lemma PaddedZeroExample()
    ensures ReadLong([0x80, 0x00], 0) == Decoded(0, 2)
  {
    var a: seq<byte> := [0x80, 0x00];
    assert ReadGroups(a, 1, 1, 0) == Decoded(0, 2);
  }
  /** Four continuation bytes: the reader stops after the fourth group
      without looking for a last byte, and reads 2^28 - 1, whose zigzag
      image is -2^27. */
  lemma FourContinuationBytesExample()
    ensures ReadLong([0xFF, 0xFF, 0xFF, 0xFF, 0x01], 0) == Decoded(-TWO_27, 4)
  {
    var b: seq<byte> := [0xFF, 0xFF, 0xFF, 0xFF, 0x01];
    assert Pow128(3) == 2097152;
    assert ReadGroups(b, 3, 3, 2097151) == Decoded(268435455, 4);
    assert ReadGroups(b, 2, 2, 16383) == Decoded(268435455, 4);
    assert ReadGroups(b, 1, 1, 127) == Decoded(268435455, 4);
  }
  lemma ReadLongAtEnd(buf: seq<byte>, p: int)
    requires p == |buf|
    ensures ReadLong(buf, p) == Decoded(0, p + 1)
  {
    assert ByteAt(buf, p) == 0;
  }

  /** The varint round trip: readLong at the start of writeLong(n)'s output
      returns `n` and advances by as many bytes as were written. */
  lemma ReadLongRoundTrip(pre: seq<byte>, n: int, suf: seq<byte>)
    requires -TWO_27 <= n < TWO_27
    ensures WriteLong(n).Ok?
    ensures ReadLong(pre + WriteLong(n).value + suf, |pre|)
         == Decoded(n, |pre| + |WriteLong(n).value|)
  {
    ReadLongVarint(pre, ZigZag32(n), suf);
  }

  /** ReadLongRoundTrip for output placed anywhere in a buffer. */
  lemma ReadLongWriteAt(buf: seq<byte>, p: int, n: int)
    requires -TWO_27 <= n < TWO_27
    requires WriteLong(n).Ok? && At(buf, p, WriteLong(n).value)
    ensures ReadLong(buf, p) == Decoded(n, p + |WriteLong(n).value|)
  {
    assert WriteLong(n).value == VarintBytes(ZigZag32(n));
    ReadLongAt(buf, p, ZigZag32(n));
  }

  /** readLong stops after four groups, so writeLong(2^27), five bytes long,
      is read back as 0 after four bytes: values at and beyond 2^27 do not
      round-trip. */
  lemma WideValueMisread()
    ensures WriteLong(TWO_27) == Ok([0x80, 0x80, 0x80, 0x80, 0x01])
    ensures ReadLong([0x80, 0x80, 0x80, 0x80, 0x01], 0) == Decoded(0, 4)
  {
    assert VarintBytes(TWO_28 / 128 / 128 / 128 / 128) == [0x01];
    assert VarintBytes(TWO_28 / 128 / 128 / 128) == [0x80, 0x01];
    assert VarintBytes(TWO_28 / 128 / 128) == [0x80, 0x80, 0x01];
    assert VarintBytes(TWO_28 / 128) == [0x80, 0x80, 0x80, 0x01];
    assert VarintBytes(TWO_28) == [0x80, 0x80, 0x80, 0x80, 0x01];
    var buf: seq<byte> := [0x80, 0x80, 0x80, 0x80, 0x01];
    assert Pow128(3) == 128 * 128 * 128;
    assert ReadGroups(buf, 3, 3, 0) == Decoded(0, 4);
    assert ReadGroups(buf, 2, 2, 0) == Decoded(0, 4);
    assert ReadGroups(buf, 1, 1, 0) == Decoded(0, 4);
  }

  /* -------------------------------------------------------------- strings */

  /** Text decoding inverts the ASCII byte layout. */
  lemma DecodeAscii(s: string)
    requires IsAscii(s)
    ensures DecodeText(AsciiBytes(s)) == s
  {
    var bytes := AsciiBytes(s);
    var t := DecodeText(bytes);
    forall i | 0 <= i < |s|
      ensures t[i] == s[i]
    {
      assert bytes[i] == s[i] as int < 128;
    }
  }

  /** The string round trip: for ASCII text readString after writeString
      returns the text and ends where the write ended. */
  lemma ReadStringAt(buf: seq<byte>, p: int, s: string, q: int)
    requires IsAscii(s) && |s| < TWO_27 && At(buf, p, WriteString(s).value)
    requires q == p + |WriteString(s).value|
    ensures ReadString(buf, p) == Decoded(s, q)
  {
    var header := VarintBytes(2 * |s|);
    var body := AsciiBytes(s);
    assert WriteString(s).value == header + body;
    var start := p + |header|;
    AtParts(buf, p, header, body, start);
    ReadCountAt(buf, p, |s|, start);
    ReadStringFrom(buf, p, |s|, start, q, body);
    DecodeAscii(s);
  }

  /** readString once the length is known and its bytes lie in the buffer. */
  lemma ReadStringFrom(buf: seq<byte>, p: int, len: nat, start: int, q: int, bytes: seq<byte>)
    requires ReadLong(buf, p) == Decoded(len, start)
    requires |bytes| == len && At(buf, start, bytes) && q == start + len
    ensures ReadString(buf, p) == Decoded(DecodeText(bytes), q)
  {
    AtSlice(buf, start, bytes);
    assert Slice(buf, start, start + len) == bytes;
  }

  lemma UnZigZagEven(k: nat)
    ensures UnZigZag(2 * k) == k
  {
    assert (2 * k) % 2 == 0 && (2 * k) / 2 == k;
  }

  /** ReadStringAt with the surroundings spelled out. */
  lemma ReadStringRoundTrip(pre: seq<byte>, s: string, suf: seq<byte>)
    requires IsAscii(s) && |s| < TWO_27
    ensures WriteString(s).Ok?
    ensures ReadString(pre + WriteString(s).value + suf, |pre|)
         == Decoded(s, |pre| + |WriteString(s).value|)
  {
    AtMiddle(pre, WriteString(s).value, suf);
    ReadStringAt(pre + WriteString(s).value + suf, |pre|, s, |pre| + |WriteString(s).value|);
  }

  /** Cutting the last byte off a non-empty string's encoding leaves the
      header intact, so readString still advances by the full length and
      the tap ends past the buffer: only isValid reveals the overrun. */
  lemma ReadStringOverrun(pre: seq<byte>, s: string, e: seq<byte>)
    requires IsAscii(s) && 1 <= |s| < TWO_27 && WriteString(s) == Ok(e)
    ensures var cut := pre + e[..|e| - 1];
            && ReadString(cut, |pre|).pos == |pre| + |e|
            && !Tap(cut, ReadString(cut, |pre|).pos).IsValid()
  {
    CutStringOverrun(pre, VarintBytes(2 * |s|), AsciiBytes(s), |s|, e);
  }

  /** ReadStringOverrun for any `k` bytes after a header announcing them. */
  lemma CutStringOverrun(pre: seq<byte>, header: seq<byte>, body: seq<byte>, k: nat, e: seq<byte>)
    requires 2 * k < TWO_28 && header == VarintBytes(2 * k) && |body| == k >= 1 && e == header + body
    ensures var cut := pre + e[..|e| - 1];
            && ReadString(cut, |pre|).pos == |pre| + |e|
            && !Tap(cut, ReadString(cut, |pre|).pos).IsValid()
  {
    var cut := pre + e[..|e| - 1];
    AtCutHead(pre, header, body);
    var start := |pre| + |header|;
    var q := start + k;
    ReadStringPastEnd(cut, |pre|, k, start, q);
  }

  /** Dropping the last byte of `a + b`, with `b` non-empty, keeps `a`. */
  lemma AtCutHead(pre: seq<byte>, a: seq<byte>, b: seq<byte>)
    requires |b| >= 1
    ensures At(pre + (a + b)[..|a + b| - 1], |pre|, a)
  {
    var cut := pre + (a + b)[..|a + b| - 1];
    AtSlice(cut, |pre|, a);
    assert cut[|pre|..|pre| + |a|] == a;
  }

  /** A string header announcing `k` bytes moves the tap to `q`, past the
      end of a buffer too short to hold them. */
  lemma ReadStringPastEnd(buf: seq<byte>, p: int, k: nat, start: int, q: int)
    requires 2 * k < TWO_28 && At(buf, p, VarintBytes(2 * k))
    requires start == p + |VarintBytes(2 * k)| && q == start + k && |buf| < q
    ensures ReadString(buf, p).pos == q && !Tap(buf, q).IsValid()
  {
    ReadCountAt(buf, p, k, start);
  }

  /** writeString copies UTF-16 code units under a UTF-8 length: "é" gets
      the length 2, its code unit 0xE9, and a NaN code unit stored as 0 —
      not its UTF-8 bytes C3 A9. */
  lemma NonAsciiStringBytes()
    ensures WriteString("\U{E9}") == Ok([0x04, 0xE9, 0x00])
  {
    var s := "\U{E9}";
    assert s[1..] == "";
    assert Utf8Length(s) == 2;
    assert Utf16Units(s) == [0xE9];
    assert WriteLong(2) == Ok([0x04]);
    assert CodeUnitBytes(s, 2) == [0xE9, 0x00];
    assert !IsAscii(s);
    assert [0x04] + [0xE9, 0x00] == [0x04, 0xE9, 0x00];
  }
}

=== FILE: write_laws.dfy ===
/** Laws of the writers on values that are not what the schema describes.
    ArrayType._write reads `length` and then `v[i]` for each index, so a
    string or an array-like object is written as the array of its indexed
    reads. The record writer reads each field as a property, so a name the
    value does not own is looked up along its prototype chain. */
module WriteLaws {
  import opened Base
  import opened Utils
  import opened UtilsProofs
  import opened Types

  /** A string or object with a positive number (or `true`) as its length
      is written exactly as the array of its indexed reads. */
  lemma ArrayLikeAsArray(arr: Type, v: Value, n: Value, xs: seq<Value>)
    requires arr.ArrayType? && (v.VStr? || v.VObject?)
    requires Prop(v, "length") == Ok(n) && ((n.VNum? && n.n > 0) || n == VBool(true))
    requires Elements(v, if n.VNum? then n.n else 1) == Ok(xs)
    ensures Write(arr, v) == Write(arr, VArray(xs))
  {
  }

  /** A non-empty string of Basic Multilingual Plane characters is written
      as the array of its one-character strings. */
  lemma StringAsArray(arr: Type, s: string)
    requires arr.ArrayType? && 0 < |s| && Utf16Length(s) == |s|
    ensures Write(arr, VStr(s)) == Write(arr, VArray(seq(|s|, i requires 0 <= i < |s| => VStr([s[i]]))))
  {
    var xs := StringElements(s);
    ArrayLikeAsArray(arr, VStr(s), VNum(|s|), xs);
  }

  /** The indexed reads of a Basic Multilingual Plane string are its
      one-character strings. */
  lemma StringElements(s: string) returns (xs: seq<Value>)
    requires Utf16Length(s) == |s|
    ensures xs == seq(|s|, i requires 0 <= i < |s| => VStr([s[i]]))
    ensures Elements(VStr(s), |s|) == Ok(xs)
  {
    xs := seq(|s|, i requires 0 <= i < |s| => VStr([s[i]]));
    forall i: nat | i < |s|
      ensures Prop(VStr(s), DecimalString(i)) == Ok(xs[i])
    {
      IndexKeyRoundTrip(i);
    }
    assert IndexedReadsOk(VStr(s), |s|);
    var e := Elements(VStr(s), |s|);
    assert e.Ok? && |e.value| == |xs|;
    assert forall i :: 0 <= i < |xs| ==> e.value[i] == xs[i] by {
      forall i | 0 <= i < |xs| ensures e.value[i] == xs[i] {
        assert Prop(VStr(s), DecimalString(i)) == Ok(e.value[i]);
      }
    }
    assert e.value == xs;
  }

  /** The decimal digits of an index parse back to the index. */
  lemma {:induction false} IndexKeyRoundTrip(i: nat)
    ensures ParseIndex(DecimalString(i)) == Some(i)
    ensures DigitsValue(DecimalString(i)) == i
  {
    var r := DecimalString(i);
    if i < 10 {
      assert r[..0] == [];
    } else {
      IndexKeyRoundTrip(i / 10);
      assert r[..|r| - 1] == DecimalString(i / 10);
      assert DigitsValue(r) == i / 10 * 10 + i % 10;
    }
  }

  /** Every key that parses as an index is the decimal string of that
      index: there is one key per index. */
  lemma {:induction false} IndexKeyCanonical(key: string)
    requires ParseIndex(key).Some?
    ensures DecimalString(ParseIndex(key).value) == key
    decreases |key|
  {
    var n := ParseIndex(key).value;
    var last := key[|key| - 1];
    if |key| == 1 {
      assert n == DigitsValue(key);
      assert key[..0] == [] && DigitsValue(key[..0]) == 0;
      assert n == last as int - '0' as int;
      assert DecimalString(n) == [('0' as int + n) as char] == [last] == key;
    } else {
      var pre := key[..|key| - 1];
      assert IsDigits(pre);
      LeadingDigit(pre);
      assert ParseIndex(pre) == Some(DigitsValue(pre));
      IndexKeyCanonical(pre);
      assert n == DigitsValue(pre) * 10 + (last as int - '0' as int);
      assert n / 10 == DigitsValue(pre) && n % 10 == last as int - '0' as int;
      assert key == pre + [last];
    }
  }

  /** Digits with a non-zero first digit denote a positive number. */
  lemma {:induction false} LeadingDigit(s: string)
    requires |s| > 0 && IsDigits(s) && s[0] != '0'
    ensures DigitsValue(s) > 0
    decreases |s|
  {
    if |s| > 1 {
      LeadingDigit(s[..|s| - 1]);
    }
  }

  /** An index key names no member of Object.prototype, so an object's
      indexed read is its own property or `undefined`. */
  lemma ObjectIndexRead(v: Value, i: nat)
    requires v.VObject?
    ensures Prop(v, DecimalString(i))
         == Ok(if DecimalString(i) in v.props then v.props[DecimalString(i)] else VUndefined)
  {
    var key := DecimalString(i);
    assert '0' <= key[0] <= '9';
    assert !IsObjectMember(key);
  }

  /** The indexed reads of an object never fail. */
  lemma ObjectElements(v: Value, k: int)
    requires v.VObject?
    ensures Elements(v, k).Ok?
  {
    forall i: nat | i < k ensures Prop(v, DecimalString(i)).Ok? {
      ObjectIndexRead(v, i);
    }
  }

  /** The string "ab" is written as the array ["a", "b"]: the count 2,
      the items "a" and "b", and the end marker. */
  lemma StringItemsExample()
    ensures Write(ArrayType(StringType), VStr("ab")) == Ok([0x04] + [0x02, 0x61] + [0x02, 0x62] + [0x00])
  {
    var arr := ArrayType(StringType);
    var xs := [VStr("a"), VStr("b")];
    assert Utf16Length("ab") == 2 by {
      assert "ab"[1..] == "b" && "b"[1..] == "";
    }
    StringAsArray(arr, "ab");
    assert seq(2, i requires 0 <= i < 2 => VStr(["ab"[i]])) == xs;
    TwoItemArrayExample();
  }

  /** The array ["a", "b"]: count 2, the two strings, the end marker. */
  lemma TwoItemArrayExample()
    ensures Write(ArrayType(StringType), VArray([VStr("a"), VStr("b")]))
         == Ok([0x04] + [0x02, 0x61] + [0x02, 0x62] + [0x00])
  {
    TwoItemsExample();
    WriteLongExamples();
    var a: seq<byte>, b: seq<byte> := [0x02, 0x61], [0x02, 0x62];
    assert [0x04] + (a + b) + [0x00] == [0x04] + a + b + [0x00];
  }

  /** The items ["a", "b"], one string after the other. */
  lemma TwoItemsExample()
    ensures WriteItems(ArrayType(StringType), [VStr("a"), VStr("b")], 0) == Ok([0x02, 0x61] + [0x02, 0x62])
  {
    var arr := ArrayType(StringType);
    var xs := [VStr("a"), VStr("b")];
    OneCharString('a');
    OneCharString('b');
    assert "a" == ['a'] && "b" == ['b'];
    assert WriteItems(arr, xs, 1) == Ok([2, 98]) by {
      assert WriteItems(arr, xs, 2) == Ok([]);
      assert [2, 98] + [] == [2, 98];
    }
    assert xs[0] == VStr("a");
  }

  /** An array-like object with a negative length writes no items, only
      the negative count and the end marker. */
  lemma NegativeLengthExample()
    ensures Write(ArrayType(StringType), VObject(map["length" := VNum(-1)])) == Ok([1, 0])
  {
    var arr := ArrayType(StringType);
    var v := VObject(map["length" := VNum(-1)]);
    WriteLongExamples();
    assert Prop(v, "length") == Ok(VNum(-1));
    assert Elements(v, -1) == Ok([]);
    assert WriteItems(arr, [], 0) == Ok([]);
    assert [1] + [] + [0] == [1, 0];
  }

  /** A length of `true` counts as one item, read as `v[0]`. */
  lemma TrueLengthExample()
    ensures Write(ArrayType(StringType), VObject(map["length" := VBool(true), "0" := VStr("x")]))
         == Ok([2, 2, 120, 0])
  {
    var arr := ArrayType(StringType);
    var v := VObject(map["length" := VBool(true), "0" := VStr("x")]);
    WriteLongExamples();
    assert Prop(v, "length") == Ok(VBool(true));
    assert DecimalString(0) == "0";
    ObjectElements(v, 1);
    var e := Elements(v, 1).value;
    assert Prop(v, "0") == Ok(e[0]);
    assert |e| == 1 && e[0] == VStr("x");
    assert e == [VStr("x")];
    OneItemExample();
    assert WriteArrayLike(arr, v, VBool(true)) == Ok([2] + [2, 120] + [0]);
    assert [2] + [2, 120] + [0] == [2, 2, 120, 0];
  }

  /** The single item "x". */
  lemma OneItemExample()
    ensures WriteItems(ArrayType(StringType), [VStr("x")], 0) == Ok([2, 120])
  {
    var arr := ArrayType(StringType);
    OneCharString('x');
    assert "x" == ['x'];
    assert WriteItems(arr, [VStr("x")], 1) == Ok([]);
    assert [2, 120] + [] == [2, 120];
  }

  /** A missing index reads `undefined`, which the string writer rejects. */
  lemma MissingIndexExample()
    ensures Write(ArrayType(StringType), VObject(map["length" := VNum(1)])) == Err(InvalidValue)
  {
    var v := VObject(map["length" := VNum(1)]);
    WriteLongExamples();
    assert Prop(v, "length") == Ok(VNum(1));
    ObjectElements(v, 1);
    ObjectIndexRead(v, 0);
    assert DecimalString(0) == "0";
    var e := Elements(v, 1).value;
    assert |e| == 1 && e[0] == VUndefined;
  }

  /** An object without its own `toString` as the length converts to NaN, whose zigzag image is -1:
      writeLong never ends. */
  lemma ObjectLengthExample()
    ensures Write(ArrayType(StringType), VObject(map["length" := VObject(map[])])) == Err(NonTermination)
  {
    assert Prop(VObject(map["length" := VObject(map[])]), "length") == Ok(VObject(map[]));
  }

  /** An object whose own `toString` is not a function has no way to
      become a number: `n >= 0` in writeLong throws a TypeError. */
  lemma ShadowedToStringLengthExample()
    ensures Write(ArrayType(StringType), VObject(map["length" := VObject(map["toString" := VStr("x")])]))
            == Err(NoPrimitive)
  {
    var n := VObject(map["toString" := VStr("x")]);
    assert Prop(VObject(map["length" := n]), "length") == Ok(n);
  }

  /** A value that is not a string is rejected by the string writer, but
      interpolating it into the error message converts it to a string
      first: an object with its own `toString`, or an array holding one,
      throws a TypeError there instead. */
  lemma StringWriterConversionExamples()
    ensures Write(StringType, VObject(map["toString" := VNum(5)])) == Err(NoPrimitive)
    ensures Write(StringType, VArray([VUndefined, VObject(map["toString" := VNum(5)])])) == Err(NoPrimitive)
    ensures Write(StringType, VObject(map["valueOf" := VNum(5)])) == Err(InvalidValue)
    ensures Write(StringType, VArray([VNum(1), VObject(map[])])) == Err(InvalidValue)
  {
    var xs := [VUndefined, VObject(map["toString" := VNum(5)])];
    assert ToPrimitiveThrows(xs[1]);
    var ys := [VNum(1), VObject(map[])];
    assert !ToPrimitiveThrows(ys[0]) && !ToPrimitiveThrows(ys[1]);
  }

  /** An array of a non-ASCII string, which does not conform, is still
      laid out as count, items, end marker: ["é"] is the count 1, the
      string's bytes, and the end marker. */
  lemma NonAsciiArrayExample()
    ensures Write(ArrayType(StringType), VArray([VStr("\U{E9}")])) == Ok([0x02] + [0x04, 0xE9, 0x00] + [0x00])
  {
    var arr := ArrayType(StringType);
    var xs := [VStr("\U{E9}")];
    NonAsciiStringBytes();
    WriteLongExamples();
    assert WriteItems(arr, xs, 0) == Ok([0x04, 0xE9, 0x00]) by {
      assert WriteItems(arr, xs, 1) == Ok([]);
      assert [0x04, 0xE9, 0x00] + [] == [0x04, 0xE9, 0x00];
    }
  }

  /** A field named like a member of Object.prototype reads that member
      when the object does not own it: a function the writer cannot
      write, which the model does not follow. */
  lemma InheritedFieldExample()
    ensures Write(RecordType([Field("toString", ArrayType(StringType))]), VObject(map[])) == Err(Unmodelled)
    ensures Write(RecordType([Field("constructor", RecordType([Field("name", StringType)]))]), VObject(map[]))
         == Err(Unmodelled)
  {
    assert Prop(VObject(map[]), "toString") == Err(Unmodelled);
    assert Prop(VObject(map[]), "constructor") == Err(Unmodelled);
  }

  /** An own property shadows the inherited member of the same name. */
  lemma OwnFieldExample()
    ensures Write(RecordType([Field("toString", StringType)]), VObject(map["toString" := VStr("x")])) == Ok([2, 120])
  {
    var rec := RecordType([Field("toString", StringType)]);
    OneCharString('x');
    assert "x" == ['x'];
    assert WriteFields(rec, VObject(map["toString" := VStr("x")]), 1) == Ok([]);
    assert [2, 120] + [] == [2, 120];
  }

  /** Any other missing field reads `undefined`, which the string writer
      rejects. */
  lemma MissingFieldExample()
    ensures Write(RecordType([Field("name", StringType)]), VObject(map[])) == Err(InvalidValue)
  {
    assert Prop(VObject(map[]), "name") == Ok(VUndefined);
  }

  /** A one-character ASCII string is written as its zigzag length 2 and
      its code. */
  lemma OneCharString(c: char)
    requires c as int < 128
    ensures WriteString([c]) == Ok([2, c as int])
  {
    assert IsAscii([c]);
    assert AsciiBytes([c]) == [c as int];
    assert VarintBytes(2) == [2];
    assert WriteString([c]) == Ok(VarintBytes(2 * |[c]|) + AsciiBytes([c]));
    assert [2] + [c as int] == [2, c as int];
  }
}
